=== FILE: README.md ===
# code_whiz review flow: a Dafny model

code_whiz reviews GitHub pull requests with a language model. A manual
trigger validates the repository and queues a `pr.review.requested` event.
The `generate-review` background function then runs five named steps: fetch
the pull request, retrieve context, generate the review, post it as a
comment, and save it. Around that flow sit the GitHub helpers (token
resolution, the contribution calendar, repository listing), the dashboard
server actions, and the GitHub webhook endpoint.

This project models the decision logic of those pieces. It covers which
checks run in what order, which error wins, which calls are made, what gets
recorded, and the strings that are built. Every external call is an oracle
field of `Entities.Services`: database queries, GitHub REST and GraphQL
calls, the event queue, context retrieval and text generation. The session
is not an oracle: the actions that read it take it as a plain
`Option<Session>` parameter.
Each oracle maps its arguments to what the awaited call returns (`Ok`) or
throws (`Fail`). A run returns the sequence of calls it made (`Entities.Call`)
together with its result. "Nothing else happens" is therefore a statement
about that sequence.

Files, one module each:

- `js.dfy` (`Js`): `Option`, `Result`, thrown values (`Error` with a message, or any other value), nullable strings, truthiness and template-literal rendering.
- `text.dfy` (`Text`): `Array.join`, decimal rendering and parsing of naturals, and splitting at the first occurrence of a character.
- `entities.dfy` (`Entities`): rows, GitHub payloads, the review event, the call trace and the oracles.
- `formats.dfy` (`Formats`): the retrieval query and scope, the pull-request URL with its parser, and the review prompt.
- `github.dfy` (`GithubLib`): `module/github/lib/github.ts`.
- `dashboard.dfy` (`Dashboard`): `module/dashboard/actions/index.ts`.
- `review.dfy` (`ReviewPipeline`): `inngest/functions/review.ts`.
- `trigger.dfy` (`ManualReview`): `module/ai/actions/index.ts`.
- `webhook.dfy` (`Webhook`): `app/api/webhooks/github/route.ts`.

Three points about what the code does and does not do:

- `generate-review` stores no row when a step fails. Only save-review writes a row, and only for a repository that is found. A failure row is written only by the manual trigger, with status `FAILED`.
- post-comment passes the generated text unchanged to `postReviewComment`.
- The webhook route reads the `x-github-event` header and answers only `ping`. Every other event, `pull_request` included, is acknowledged without any action.

## Model

| member | source | states |
|---|---|---|
| Js.Interpolate | inngest/functions/review.ts:34 | A template literal renders a string as itself, `null` as "null" and `undefined` as "undefined". |
| Text.Join | inngest/functions/review.ts:50 | No parts join to the empty text, and one part joins to itself unchanged. The joined text is as long as the parts plus one separator between each neighbouring pair. |
| Text.JoinAppend | inngest/functions/review.ts:50 | Joining two non-empty lists equals joining each and putting one separator between them. |
| Text.ParseNatToString | inngest/functions/review.ts:126 | The decimal rendering of a pull-request number parses back to that number. |
| Text.NatToStringInjective | inngest/functions/review.ts:126 | Different pull-request numbers render differently. |
| Text.SplitFirstOfConcat | inngest/functions/review.ts:34-36 | Splitting `a + c + b` at the first `c` gives back `a` and `b` when `a` has no `c`. |
| Formats.ContextQuery | inngest/functions/review.ts:34 | The query is the title, a newline, then the rendered description. Splitting at the first newline recovers both whenever the title has no newline. |
| Formats.RepositoryScope | inngest/functions/review.ts:36 | The scope `owner/repo` splits back into owner and repository at its first `/`. |
| Formats.PullRequestUrl | inngest/functions/review.ts:126 | The URL starts with `https://github.com/`. |
| Formats.PullRequestUrlRoundTrip | inngest/functions/review.ts:126 | The stored URL parses back to exactly the owner, repository and number it was built from. |
| Formats.PullRequestUrlInjective | inngest/functions/review.ts:126 | Two rows store the same URL only for the same pull request. |
| Formats.DescriptionShown | inngest/functions/review.ts:47 | A truthy description is shown unchanged. An empty, `null` or `undefined` one is replaced by "No description provided", so the shown text is never empty. |
| Formats.Concat | inngest/functions/review.ts:41-97 | The prompt's length is the sum of its parts' lengths. |
| Formats.ConcatSlot | inngest/functions/review.ts:41-97 | Each part occurs in the prompt at the offset given by the total length of the parts before it. |
| Formats.ReviewPromptInterpolation | inngest/functions/review.ts:46-54 | The title, the shown description, the joined context and the diff each appear verbatim at their slot in the prompt. |
| Formats.FalsyDescriptionsShowPlaceholder | inngest/functions/review.ts:47 | The prompt for a falsy description equals the prompt for the literal text "No description provided". |
| Entities.CreatedRecords | module/ai/actions/index.ts:68-77 | The rows a call trace asks the database to create: a row is listed exactly when the trace holds a create call for it. A create the database rejects is still listed; whether it was stored is told by the run's result. |
| Entities.CreatedRecordsAppend | module/ai/actions/index.ts:61-83 | The create calls of two traces run one after the other are those of the first followed by those of the second. |
| GithubLib.GetGithubToken | module/github/lib/github.ts:8-35 | The checks run in order: session, then account, then token. The first check that fails decides the error ("UnAuthorized", the lookup's own error, "GitHub account not found", "GitHub token missing"). Otherwise the result is the account's token unchanged, which is never empty. |
| GithubLib.GetGithubTokenSucceeds | module/github/lib/github.ts:13-34 | A token is returned exactly when there is a session, an account is found, and that account's token is that non-empty string. |
| GithubLib.WrapContributionError | module/github/lib/github.ts:84-89 | An `Error` is rethrown as an `Error` whose message is "Failed to fetch contributions: " followed by the original message. Any other thrown value is rethrown unchanged. |
| GithubLib.WrapContributionErrorInjective | module/github/lib/github.ts:84-89 | Wrapping loses no information: different errors stay different. |
| GithubLib.FetchUserContribution | module/github/lib/github.ts:80-89 | The query's calendar is returned as is. It fails exactly when the query fails, with the wrapped error. |
| GithubLib.RepositoriesRequest | module/github/lib/github.ts:92-104 | The listing is sorted by `updated`, descending, across all visibilities. Page defaults to 1 and page size to 10; given values are passed through. |
| GithubLib.GetRepositories | module/github/lib/github.ts:92-106 | A token failure is the result. Otherwise the result is what the listing call returns for that token and the defaulted request. |
| GithubLib.OmittedArgumentsDefault | module/github/lib/github.ts:92 | Leaving out the page is the same call as passing page 1, and leaving out the page size is the same as passing 10, each independently of the other. |
| Dashboard.LoadCalendar | module/dashboard/actions/index.ts:15-30 | Session, token, login and calendar are loaded in order. It succeeds exactly when all of them succeed, and then holds exactly what each returned. |
| Dashboard.Level | module/dashboard/actions/index.ts:40 | The level is at most 4. It is 4 exactly when the count is at least 12, and it is never negative for a non-negative count. Below 4 it is the count divided by 3, rounded down. |
| Dashboard.LevelMonotone | module/dashboard/actions/index.ts:40 | More contributions never give a lower level. |
| Dashboard.Flatten | module/dashboard/actions/index.ts:36-42 | The heat map has exactly one cell per calendar day. Every cell's level is `Level` of its count. |
| Dashboard.FlattenPosition | module/dashboard/actions/index.ts:36-42 | Day `d` of week `w` is the cell at the position after all days of the earlier weeks (week-then-day order). |
| Dashboard.FlattenLevelsInRange | module/dashboard/actions/index.ts:40 | With non-negative counts every level lies in 0..4. |
| Dashboard.ContributionStatsOf | module/dashboard/actions/index.ts:32-47 | No calendar gives `null`. A calendar gives exactly the flattened heat map of its weeks (one cell per day, in week-then-day order) and its total unchanged. |
| Dashboard.GetContributionStats | module/dashboard/actions/index.ts:13-52 | The heat map is returned exactly when loading succeeds and a calendar is present. Every failure gives `null`. |
| Dashboard.TotalCommits | module/dashboard/actions/index.ts:78 | The commit total is the calendar's total, or 0 without a calendar. |
| Dashboard.GetDashboardStats | module/dashboard/actions/index.ts:54-105 | Any failure gives four zeros. Otherwise commits come from the calendar, pull requests from the one-result search's total, and repositories and reviews are the fixed figures. |
| Dashboard.ZeroStatsIffFailure | module/dashboard/actions/index.ts:54-105 | The four zeros are returned exactly when loading or the authored-PR search fails, so the fallback is never mistaken for a successful answer. |
| Dashboard.InitialBuckets | module/dashboard/actions/index.ts:137-144 | There are six buckets, oldest first. They cover the five months before the current one and then the current month, consecutive and distinct, all at zero. |
| Dashboard.MonthNamesDistinct | module/dashboard/actions/index.ts:135 | The twelve month names are pairwise different. |
| Dashboard.Credit | module/dashboard/actions/index.ts:151-153 | An entry adds its amount to the chosen field of the bucket of its month and changes nothing else. An entry with no bucket changes nothing. |
| Dashboard.Tally | module/dashboard/actions/index.ts:147-155 | After all entries, each bucket's field has grown by exactly the total of the entries keyed by its month. Other fields and months are unchanged. |
| Dashboard.AllDays | module/dashboard/actions/index.ts:147-148 | The days visited are as many as the calendar has. |
| Dashboard.AllDaysPosition | module/dashboard/actions/index.ts:147-148 | Day `d` of week `w` is visited at the position after all days of the earlier weeks, unchanged: the chart counts the calendar's own days in week-then-day order. |
| Dashboard.FlattenIsAllDays | module/dashboard/actions/index.ts:36-42 | The heat map and the chart walk the same days: heat-map cell `i` is the cell of the chart's day `i`. |
| Dashboard.MonthlyRows | module/dashboard/actions/index.ts:131-204 | There are six rows, oldest month first. Each row's commits, pull requests and reviews are the totals of the days, search results and sample reviews whose month matches the row. |
| Dashboard.TallyThree | module/dashboard/actions/index.ts:147-199 | The commit, review and pull-request passes each touch only their own field. |
| Dashboard.MonthlyRowsNamesDistinct | module/dashboard/actions/index.ts:201-204 | The six rows carry six different names, so keying by name keeps one row per month. |
| Dashboard.GetMonthlyActivity | module/dashboard/actions/index.ts:108-209 | Any failure, or a missing calendar, gives `[]`. When loading yields a calendar and the recent-PR search succeeds, the result is exactly the six rows of `MonthlyRows` for that calendar and those search results. |
| Dashboard.YearEarlierDayCounted | module/dashboard/actions/index.ts:149-153 | A day from the current month one year earlier is counted in the current month's bucket. |
| Dashboard.OutsideMonthIgnored | module/dashboard/actions/index.ts:150-153 | A day whose month is not a bucket's month adds nothing to that bucket. |
| ReviewPipeline.AccountToken | inngest/functions/review.ts:17-24 | A token is found exactly when the lookup succeeds, finds an account, and that account's token is truthy (a non-empty string). The token found is that account's token. |
| ReviewPipeline.FetchPrDataStep | inngest/functions/review.ts:15-30 | The account is looked up first. Without a usable token the step throws "No GitHub access token found" before any fetch. Otherwise it fetches with that token and passes the pull request's data and the token on; a fetch that throws is the step's failure, with the fetch's error. It creates no rows. |
| ReviewPipeline.RetrieveContextOf | inngest/functions/review.ts:33-37 | One retrieval call, with the query built from title and description and the `owner/repo` scope. Its answer is the step's result. It creates no rows. |
| ReviewPipeline.GenerateReviewText | inngest/functions/review.ts:40-105 | One generation call on `gemini-2.5-flash` with the review prompt. Its text is the review. It creates no rows. |
| ReviewPipeline.PostCommentOf | inngest/functions/review.ts:107-109 | One comment call posting the review text unchanged, with the given token. It creates no rows. |
| ReviewPipeline.SaveReviewOf | inngest/functions/review.ts:112-132 | The repository is looked up first. If it is found, one create call is made for the completed row, and the step's result is that call's result, so a rejected write fails the step. If it is not found, no create call is made and the step succeeds. A failing lookup is the step's failure. |
| ReviewPipeline.StopRunFrom | inngest/functions/review.ts:15-132 | A step that throws ends the run there, with its error as the run's failure. |
| ReviewPipeline.ThenRunFrom | inngest/functions/review.ts:15-132 | A step that finished without creating rows, followed by a well-formed run of the later steps, is a well-formed run from that step on. |
| ReviewPipeline.FromSave | inngest/functions/review.ts:112-133 | The last step alone: the run succeeds exactly when save-review does, and a failing save is the run's failure with the save's error. |
| ReviewPipeline.FromPost | inngest/functions/review.ts:107-133 | post-comment runs first. save-review follows exactly when the post succeeded, with the fetched title and the review. A failing post is the run's failure with its own error; otherwise the outcome is save-review's. |
| ReviewPipeline.FromGenerate | inngest/functions/review.ts:40-133 | Generation runs first. The later steps follow exactly when it succeeded, on the generated text. A failing generation is the run's failure with its own error; otherwise the outcome is that of the later steps. |
| ReviewPipeline.FromRetrieve | inngest/functions/review.ts:33-133 | Retrieval runs first. The later steps follow exactly when it succeeded, on the retrieved context. A failing retrieval is the run's failure with its own error; otherwise the outcome is that of the later steps. |
| ReviewPipeline.GenerateReview | inngest/functions/review.ts:12-134 | Steps run in the fixed order. Every step but the last finished and created no rows. The run succeeds exactly when all five steps ran and the last one succeeded. The steps after the first run on the fetched pull request. A failing first step is the run's failure with that step's error; otherwise the outcome is that of the later steps. |
| ReviewPipeline.ReachesSaveIffFullRun | inngest/functions/review.ts:15-112 | save-review runs exactly when fetch, retrieval, generation and post all succeed. |
| ReviewPipeline.FullRunSteps | inngest/functions/review.ts:15-132 | When the four steps before save-review succeed, all five steps run. Steps 3 to 5 are: generation on the retrieved context, the post of the generated text with the first step's token, and the save of the fetched title with that text. |
| ReviewPipeline.RunRecords | inngest/functions/review.ts:112-132 | In any run whose steps follow the fixed order and stop at the first failure, the rows are exactly those of its save-review step. A run that stopped earlier has none. |
| ReviewPipeline.FailureStopsLaterSteps | inngest/functions/review.ts:15-132 | A failing step is the last step of the run, and the run fails. |
| ReviewPipeline.MissingTokenStopsBeforeFetch | inngest/functions/review.ts:17-28 | Without a usable token the run is just the account lookup, then failure with "No GitHub access token found". |
| ReviewPipeline.AccountLookupFailureEndsRun | inngest/functions/review.ts:15-22 | A failing account lookup ends the run in its first step with the lookup's error. |
| ReviewPipeline.FetchFailureEndsRun | inngest/functions/review.ts:15-30 | A pull-request fetch that throws ends the run in its first step, after the account lookup and the fetch, with the fetch's error. |
| ReviewPipeline.LaterStepFailureIsRunFailure | inngest/functions/review.ts:33-105 | Once the pull request is fetched, a failing retrieval, or a failing generation after a successful retrieval, ends the run with that step's own error. |
| ReviewPipeline.PostOrSaveFailureIsRunFailure | inngest/functions/review.ts:107-132 | Once generation succeeds, a failing post, or a failing save after a successful post, ends the run with that step's own error. |
| ReviewPipeline.RetrievalUsesFetchedPullRequest | inngest/functions/review.ts:33-36 | Once the pull request is fetched, retrieval runs as the second step. It queries with the fetched title and description, scoped to `owner/repo`. |
| ReviewPipeline.PostsGeneratedText | inngest/functions/review.ts:104-109 | Once generation succeeds, post-comment runs as the fourth step. It posts exactly the generated text, with the token found in the first step. |
| ReviewPipeline.SavesOneCompletedRecord | inngest/functions/review.ts:112-131 | When the four earlier steps succeed and the repository exists, the run issues exactly one create call. Its row has that repository's id, status "completed", the fetched title, the pull request's URL and the generated review. |
| ReviewPipeline.CompletedRecordStoredIffSuccess | inngest/functions/review.ts:112-133 | In that case the run succeeds exactly when the database accepts the completed row. A rejected write fails the run. |
| ReviewPipeline.MissingRepositoryRecordsNothing | inngest/functions/review.ts:120-133 | When the four earlier steps succeed but the repository is not found, no create call is made and the run still succeeds. |
| ReviewPipeline.AtMostOneRecord | inngest/functions/review.ts:112-132 | No run issues more than one create call. A run that stops early issues none. |
| ManualReview.GithubAccounts | module/ai/actions/index.ts:19-29 | The accounts included with the repository are exactly the user's GitHub accounts. |
| ManualReview.Validate | module/ai/actions/index.ts:32-45 | The checks run in order: repository found, then a GitHub account, then a truthy token. The first check that fails decides the error message. On success the token handed on is non-empty. |
| ManualReview.FailureText | module/ai/actions/index.ts:74 | The stored text is "Error: " followed by the error's message, or "Error: Unknown error" for a thrown non-`Error`. |
| ManualReview.RecordFailure | module/ai/actions/index.ts:61-83 | The catch block looks the repository up again. If it is found, exactly one create call is made, for the failure row with the error's text. If not, no create call is made. Either way the action returns nothing. |
| ManualReview.ReviewPullRequest | module/ai/actions/index.ts:7-84 | The event is queued exactly when validation, the pull-request fetch and the send all succeed. The result is then `{success: true, message: "Review Queued"}` and no create call is made. A failed check ends the chain: the pull request is not fetched and no event is sent. On any error, one create call for a FAILED row is made if the repository exists and none if it does not. |
| ManualReview.SendOnlyAfterFetch | module/ai/actions/index.ts:47-57 | The event is sent only as the third call, after a successful fetch with the validated token. It carries owner, repository, number and the repository user's id. |
| ManualReview.FailedCheckRecorded | module/ai/actions/index.ts:32-45 | When a check fails for an existing repository, the one create call is for the FAILED row carrying that check's error. |
| ManualReview.FailedFetchRecorded | module/ai/actions/index.ts:47 | A failing fetch is recorded with its error, and no event is sent. |
| ManualReview.FailedSendRecorded | module/ai/actions/index.ts:49-57 | A send that throws after a successful fetch is recorded like any other error: the one FAILED row carries "Error: " and the send's message, and the action returns nothing. |
| ManualReview.RecordWriteSwallowed | module/ai/actions/index.ts:80-83 | Whatever writing the failure row does, including failing, the action makes the same calls and returns the same result. |
| Webhook.Post | app/api/webhooks/github/route.ts:3-21 | The status is 500 exactly when the body does not parse, with `{error: "Internal Server Error"}`. Otherwise it is 200. The reply is "pong" exactly for a parsed `ping`, and "Event received" for every other parsed event. |
| Webhook.OnlyPingDispatched | app/api/webhooks/github/route.ts:10-16 | Every event other than `ping` gets the same response, including a missing header and `pull_request`. |
| Webhook.MalformedPingFails | app/api/webhooks/github/route.ts:5-10 | The body is parsed before the header is read: a malformed `ping` gets the same 500 as any other malformed request. |

## Left out

- I/O: database queries, GitHub REST and GraphQL calls, the event queue, context retrieval and text generation are oracles in `Entities.Services`. The oracles are deterministic, so the same arguments give the same answer within one run.
- The durable-execution layer: concurrency limit 5, step retries and checkpoint replay. A failing step ends the modelled run, as it does once retries are exhausted.
- `console.log` and `console.error` calls: they have no effect on results.
- Dates: `new Date(...)`, time zones and `toISOString`. Parsing a date string is an abstract parameter `parseDate` that returns year and month (`None` for an invalid date). The current month and the `since` string of the recent-PR search are parameters too.
- Dashboard.GetMonthlyActivity: the `Math.random` sample-review generator is not modelled. Its output is the `sampleReviewMonths` parameter, because the generator is random placeholder data.
- Dashboard.GetDashboardStats: the fixed figures 30 repositories and 44 reviews are constants, with no logic to prove.
- Formats.PromptParts: the instruction text after the diff is represented by its section headings only. Only the interpolation points are proved.
- Formats.ContextQuery: the query round-trips only when the title contains no newline, because a newline in the title makes the split ambiguous.
- Formats.PullRequestUrlRoundTrip: it requires owner and repository names without `/`, as GitHub names are.
- ManualReview.ReviewPullRequest: the pull-request number is a natural number. A JavaScript number could be negative or fractional, which GitHub does not produce.
- Entities.Session: a session always carries its user, so `!session?.user` and `!session` coincide.
- Session lookup: `auth.api.getSession` is not an oracle. The session is an `Option<Session>` parameter, so a lookup that throws is not represented. `getRepositories` would pass such a throw on, and the dashboard actions would catch it and return their fallback.
- Entities.CreatedRecords: lists the rows a trace asks to create, not the rows the database stored. A rejected create in the pipeline is visible as the run's failure; in the manual trigger it is swallowed and not visible at all.
- The fetch of the pull-request diff and the comment post are oracles. The GitHub helpers that implement them are not part of this model, so what `postReviewComment` adds to the comment body is not modelled.
- The repository-connection hook and the home page: user-interface code.
- `pull_request` webhook handling: the route has none. Every event other than `ping` is only acknowledged.

=== FILE: dashboard.dfy ===
/** The dashboard server actions: the contribution heat-map entries, the four
    headline statistics, and the six-month activity chart. Every failure on
    the way (no session, no token, a failing GitHub call) is caught and turned
    into the action's fallback value. */
module Dashboard {
  import opened Js
  import opened Entities
  import opened GithubLib

  // ---------------------------------------------------------------------
  // Shared prefix: session, token, login, calendar

  /** What every dashboard action loads before its own work. */
  datatype Loaded = Loaded(token: string, login: string, calendar: Option<ContributionCalendar>)

  /** Session check, token, authenticated login, then the contribution
      calendar of that login; the first failure is the result. */
  function LoadCalendar(session: Option<Session>, svc: Services): (r: Result<Loaded>)
    ensures session.None? ==> r == Fail(Error(Unauthorized))
    ensures session.Some? && GetGithubToken(session, svc).Fail? ==> r == Fail(GetGithubToken(session, svc).error)
    ensures r.Ok? <==>
      && GetGithubToken(session, svc).Ok?
      && svc.getAuthenticatedLogin(GetGithubToken(session, svc).value).Ok?
      && svc.contributionCalendar(GetGithubToken(session, svc).value,
                                  svc.getAuthenticatedLogin(GetGithubToken(session, svc).value).value).Ok?
    ensures r.Ok? ==>
      && GetGithubToken(session, svc) == Ok(r.value.token)
      && svc.getAuthenticatedLogin(r.value.token) == Ok(r.value.login)
      && svc.contributionCalendar(r.value.token, r.value.login) == Ok(r.value.calendar)
  {
    if session.None? then Fail(Error(Unauthorized))
    else match GetGithubToken(session, svc)
      case Fail(e) => Fail(e)
      case Ok(token) =>
        match svc.getAuthenticatedLogin(token)
        case Fail(e) => Fail(e)
        case Ok(login) =>
          match FetchUserContribution(token, login, svc)
          case Fail(e) => Fail(e)
          case Ok(calendar) => Ok(Loaded(token, login, calendar))
  }

  // ---------------------------------------------------------------------
  // Contribution heat map

  /** One heat-map cell. */
  datatype Contribution = Contribution(date: string, count: int, level: int)

  datatype ContributionStats = ContributionStats(contributions: seq<Contribution>, totalContributions: int)

  const MaxLevel := 4

  /** `Math.min(4, Math.floor(count / 3))`. Dafny's division by the positive
      constant 3 rounds down, as `Math.floor` does, for negative counts too. */
  function Level(count: int): (l: int)
    ensures l <= MaxLevel
    ensures l == MaxLevel <==> count >= 12
    ensures l < MaxLevel ==> 3 * l <= count < 3 * l + 3
    ensures count >= 0 ==> 0 <= l
  {
    if count / 3 < MaxLevel then count / 3 else MaxLevel
  }

  /** More contributions never give a lighter cell. */
  lemma LevelMonotone(a: int, b: int)
    requires a <= b
    ensures Level(a) <= Level(b)
  {
  }

  function ToContribution(day: ContributionDay): (c: Contribution)
    ensures c.date == day.date && c.count == day.contributionCount
    ensures c.level == Level(day.contributionCount)
  {
    Contribution(day.date, day.contributionCount, Level(day.contributionCount))
  }

  /** One cell per day of a week, in day order. */
  function WeekContributions(days: seq<ContributionDay>): (cs: seq<Contribution>)
    ensures |cs| == |days|
    ensures forall i :: 0 <= i < |days| ==> cs[i] == ToContribution(days[i])
  {
    seq(|days|, i requires 0 <= i < |days| => ToContribution(days[i]))
  }

  /** Number of days in the weeks. */
  function DayCount(weeks: seq<Week>): nat
  {
    if |weeks| == 0 then 0 else |weeks[0].contributionDays| + DayCount(weeks[1..])
  }

  /** `weeks.flatMap(week => week.contributionDays.map(...))`. */
  function Flatten(weeks: seq<Week>): (cs: seq<Contribution>)
    ensures |cs| == DayCount(weeks)
    ensures forall i :: 0 <= i < |cs| ==> cs[i].level == Level(cs[i].count)
  {
    if |weeks| == 0 then []
    else WeekContributions(weeks[0].contributionDays) + Flatten(weeks[1..])
  }

  /** Day `d` of week `w` is the cell right after all the days of the earlier
      weeks: one cell per day, weeks in order, days in order within a week. */
  lemma {:induction false} FlattenPosition(weeks: seq<Week>, w: nat, d: nat)
    requires w < |weeks| && d < |weeks[w].contributionDays|
    ensures DayCount(weeks[..w]) + d < |Flatten(weeks)|
    ensures Flatten(weeks)[DayCount(weeks[..w]) + d] == ToContribution(weeks[w].contributionDays[d])
    decreases w
  {
    var first := WeekContributions(weeks[0].contributionDays);
    assert Flatten(weeks) == first + Flatten(weeks[1..]);
    if w == 0 {
      assert weeks[..0] == [];
    } else {
      FlattenPosition(weeks[1..], w - 1, d);
      assert weeks[..w][1..] == weeks[1..][..w - 1];
      assert DayCount(weeks[..w]) == |weeks[0].contributionDays| + DayCount(weeks[1..][..w - 1]);
    }
  }

  /** With non-negative counts every level lies between 0 and 4. */
  lemma FlattenLevelsInRange(weeks: seq<Week>, i: nat)
    requires i < |Flatten(weeks)|
    requires Flatten(weeks)[i].count >= 0
    ensures 0 <= Flatten(weeks)[i].level <= MaxLevel
  {
  }

  /** The heat map of a loaded calendar; no calendar gives `null`. */
  function ContributionStatsOf(calendar: Option<ContributionCalendar>): (r: Option<ContributionStats>)
    ensures r.None? <==> calendar.None?
    ensures r.Some? ==> r.value.contributions == Flatten(calendar.value.weeks)
    ensures r.Some? ==> |r.value.contributions| == DayCount(calendar.value.weeks)
    ensures r.Some? ==> r.value.totalContributions == calendar.value.totalContributions
  {
    match calendar
    case None => None
    case Some(c) => Some(ContributionStats(Flatten(c.weeks), c.totalContributions))
  }

  /** `getContributionStats`: the heat map, or `null` on any failure or when
      the calendar is missing. */
  function GetContributionStats(session: Option<Session>, svc: Services): (r: Option<ContributionStats>)
    ensures session.None? ==> r.None?
    ensures r.Some? <==> LoadCalendar(session, svc).Ok? && LoadCalendar(session, svc).value.calendar.Some?
    ensures r.Some? ==> r == ContributionStatsOf(LoadCalendar(session, svc).value.calendar)
  {
    match LoadCalendar(session, svc)
    case Fail(_) => None
    case Ok(loaded) => ContributionStatsOf(loaded.calendar)
  }

  // ---------------------------------------------------------------------
  // Headline statistics

  datatype DashboardStats = DashboardStats(totalCommits: int, totalPRs: int, totalReviews: int, totalRepos: int)

  /** Placeholder figures the action reports on success. */
  const PlaceholderRepos := 30
  const PlaceholderReviews := 44

  const ZeroStats := DashboardStats(0, 0, 0, 0)

  /** The search for all pull requests authored by `login`. */
  function AuthoredPullRequestsQuery(login: string): string
  {
    "author:" + login + " type:pr"
  }

  /** `calendar?.totalContributions || 0`. */
  function TotalCommits(calendar: Option<ContributionCalendar>): (n: int)
    ensures calendar.None? ==> n == 0
    ensures calendar.Some? ==> n == calendar.value.totalContributions
  {
    if calendar.Some? && calendar.value.totalContributions != 0 then calendar.value.totalContributions else 0
  }

  /** `getDashboardStats`: commits from the calendar (0 without one) and the
      authored-PR count from a one-result search; any failure makes all four
      figures 0. */
  function GetDashboardStats(session: Option<Session>, svc: Services): (r: DashboardStats)
    ensures LoadCalendar(session, svc).Fail? ==> r == ZeroStats
    ensures LoadCalendar(session, svc).Ok? ==>
      var loaded := LoadCalendar(session, svc).value;
      match svc.searchPullRequests(loaded.token, AuthoredPullRequestsQuery(loaded.login), 1)
      case Fail(_) => r == ZeroStats
      case Ok(found) =>
        && r.totalCommits == TotalCommits(loaded.calendar)
        && r.totalPRs == found.totalCount
        && r.totalReviews == PlaceholderReviews
        && r.totalRepos == PlaceholderRepos
  {
    match LoadCalendar(session, svc)
    case Fail(_) => ZeroStats
    case Ok(loaded) =>
      var commits := TotalCommits(loaded.calendar);
      match svc.searchPullRequests(loaded.token, AuthoredPullRequestsQuery(loaded.login), 1)
      case Fail(_) => ZeroStats
      case Ok(found) => DashboardStats(commits, found.totalCount, PlaceholderReviews, PlaceholderRepos)
  }

  /** The all-zero fallback is returned exactly when something failed: a
      successful load and search always report the placeholder review count,
      which is not zero. */
  lemma ZeroStatsIffFailure(session: Option<Session>, svc: Services)
    ensures GetDashboardStats(session, svc) == ZeroStats <==>
      || LoadCalendar(session, svc).Fail?
      || svc.searchPullRequests(LoadCalendar(session, svc).value.token,
                                AuthoredPullRequestsQuery(LoadCalendar(session, svc).value.login), 1).Fail?
  {
  }

  // ---------------------------------------------------------------------
  // Monthly activity

  /** A month index as `Date.getMonth()` returns it. */
  type Month = m: int | 0 <= m < 12

  /** A calendar month; dates are reduced to this by the (abstract) date parser,
      which yields None for an unparseable date. */
  datatype YearMonth = YearMonth(year: int, month: Month)

  const MonthNames: seq<string> := ["Jan", "Feb", "Mar", "Apr", "May", "Jun", "Jul", "Aug", "Sep", "Oct", "Nov", "Dec"]

  /** The chart covers the current month and the five before it. */
  const ChartMonths := 6

  /** The month `back` months before `now` (`back` below 12), wrapping into
      the previous year as the `Date` constructor normalises a negative month. */
  function MonthsBefore(now: Month, back: nat): Month
    requires back < 12
  {
    if back <= now then now - back else now - back + 12
  }

  /** The calendar month after `m`. */
  function NextMonth(m: Month): Month
  {
    if m == 11 then 0 else m + 1
  }

  /** The bucket key of a date string: its month index; the year is dropped. */
  function MonthKey(parseDate: string -> Option<YearMonth>, date: string): Option<Month>
  {
    match parseDate(date)
    case None => None
    case Some(ym) => Some(ym.month)
  }

  datatype Bucket = Bucket(month: Month, commits: int, prs: int, reviews: int)

  datatype Field = Commits | PullRequests | Reviews

  function Get(b: Bucket, f: Field): int
  {
    match f
    case Commits => b.commits
    case PullRequests => b.prs
    case Reviews => b.reviews
  }

  /** One thing to count: the bucket key it falls under and how much it adds. */
  datatype Entry = Entry(key: Option<Month>, amount: int)

  /** The reference total: the amounts of the entries keyed by month `m`. */
  function MonthSum(entries: seq<Entry>, m: Month): int
  {
    if |entries| == 0 then 0
    else (if entries[0].key == Some(m) then entries[0].amount else 0) + MonthSum(entries[1..], m)
  }

  /** The six buckets, oldest month first, all at zero. */
  function InitialBuckets(now: Month): (bs: seq<Bucket>)
    ensures |bs| == ChartMonths
    ensures forall i :: 0 <= i < ChartMonths ==> bs[i].month == MonthsBefore(now, ChartMonths - 1 - i)
    ensures bs[ChartMonths - 1].month == now
    ensures forall i :: 0 <= i < ChartMonths - 1 ==> bs[i + 1].month == NextMonth(bs[i].month)
    ensures forall i :: 0 <= i < ChartMonths ==> bs[i].commits == 0 && bs[i].prs == 0 && bs[i].reviews == 0
    ensures forall i, j :: 0 <= i < j < ChartMonths ==> bs[i].month != bs[j].month
  {
    seq(ChartMonths, i requires 0 <= i < ChartMonths => Bucket(MonthsBefore(now, ChartMonths - 1 - i), 0, 0, 0))
  }

  /** Adds the entry's amount to the chosen field of the bucket with the
      entry's key; an entry without a bucket changes nothing. */
  function Credit(bs: seq<Bucket>, field: Field, e: Entry): (r: seq<Bucket>)
    ensures |r| == |bs|
    ensures forall k :: 0 <= k < |bs| ==> r[k].month == bs[k].month
    ensures forall k :: 0 <= k < |bs| ==>
      Get(r[k], field) == Get(bs[k], field) + (if e.key == Some(bs[k].month) then e.amount else 0)
    ensures forall k, f :: 0 <= k < |bs| && f != field ==> Get(r[k], f) == Get(bs[k], f)
  {
    seq(|bs|, k requires 0 <= k < |bs| =>
      if e.key != Some(bs[k].month) then bs[k]
      else match field
        case Commits => bs[k].(commits := bs[k].commits + e.amount)
        case PullRequests => bs[k].(prs := bs[k].prs + e.amount)
        case Reviews => bs[k].(reviews := bs[k].reviews + e.amount))
  }

  /** Credits every entry in turn. Each bucket's field grows by exactly the
      total of the entries keyed by its month; other fields stay as they were. */
  function Tally(bs: seq<Bucket>, field: Field, entries: seq<Entry>): (r: seq<Bucket>)
    ensures |r| == |bs|
    ensures forall k :: 0 <= k < |bs| ==> r[k].month == bs[k].month
    ensures forall k :: 0 <= k < |bs| ==> Get(r[k], field) == Get(bs[k], field) + MonthSum(entries, bs[k].month)
    ensures forall k, f :: 0 <= k < |bs| && f != field ==> Get(r[k], f) == Get(bs[k], f)
    decreases |entries|
  {
    if |entries| == 0 then bs
    else Tally(Credit(bs, field, entries[0]), field, entries[1..])
  }

  /** All days of the calendar, week by week. */
  function AllDays(weeks: seq<Week>): (days: seq<ContributionDay>)
    ensures |days| == DayCount(weeks)
  {
    if |weeks| == 0 then [] else weeks[0].contributionDays + AllDays(weeks[1..])
  }

  /** Day `d` of week `w` is the day right after all the days of the earlier
      weeks: the chart visits the calendar's own days, weeks in order and days
      in order within a week. */
  lemma {:induction false} AllDaysPosition(weeks: seq<Week>, w: nat, d: nat)
    requires w < |weeks| && d < |weeks[w].contributionDays|
    ensures DayCount(weeks[..w]) + d < |AllDays(weeks)|
    ensures AllDays(weeks)[DayCount(weeks[..w]) + d] == weeks[w].contributionDays[d]
    decreases w
  {
    assert AllDays(weeks) == weeks[0].contributionDays + AllDays(weeks[1..]);
    if w == 0 {
      assert weeks[..0] == [];
    } else {
      AllDaysPosition(weeks[1..], w - 1, d);
      assert weeks[..w][1..] == weeks[1..][..w - 1];
      assert DayCount(weeks[..w]) == |weeks[0].contributionDays| + DayCount(weeks[1..][..w - 1]);
    }
  }

  /** The heat map and the chart walk the same days: cell `i` of the heat map
      is the cell of day `i` of the chart's traversal. */
  lemma {:induction false} FlattenIsAllDays(weeks: seq<Week>)
    ensures |Flatten(weeks)| == |AllDays(weeks)|
    ensures forall i :: 0 <= i < |AllDays(weeks)| ==> Flatten(weeks)[i] == ToContribution(AllDays(weeks)[i])
    decreases |weeks|
  {
    if |weeks| > 0 {
      FlattenIsAllDays(weeks[1..]);
      var first := weeks[0].contributionDays;
      assert Flatten(weeks) == WeekContributions(first) + Flatten(weeks[1..]);
      assert AllDays(weeks) == first + AllDays(weeks[1..]);
      forall i | 0 <= i < |AllDays(weeks)|
        ensures Flatten(weeks)[i] == ToContribution(AllDays(weeks)[i])
      {
        if i >= |first| {
          assert Flatten(weeks)[i] == Flatten(weeks[1..])[i - |first|];
          assert AllDays(weeks)[i] == AllDays(weeks[1..])[i - |first|];
        }
      }
    }
  }

  /** Each day counts its contributions under its month key. */
  function CommitEntries(days: seq<ContributionDay>, parseDate: string -> Option<YearMonth>): (es: seq<Entry>)
    ensures |es| == |days|
    ensures forall i :: 0 <= i < |days| ==>
      es[i] == Entry(MonthKey(parseDate, days[i].date), days[i].contributionCount)
  {
    seq(|days|, i requires 0 <= i < |days| => Entry(MonthKey(parseDate, days[i].date), days[i].contributionCount))
  }

  /** Each date counts once under its month key. */
  function OnePerDate(dates: seq<string>, parseDate: string -> Option<YearMonth>): (es: seq<Entry>)
    ensures |es| == |dates|
    ensures forall i :: 0 <= i < |dates| ==> es[i] == Entry(MonthKey(parseDate, dates[i]), 1)
  {
    seq(|dates|, i requires 0 <= i < |dates| => Entry(MonthKey(parseDate, dates[i]), 1))
  }

  /** Each sample review counts once under its month. */
  function OnePerMonth(months: seq<Month>): (es: seq<Entry>)
    ensures |es| == |months|
    ensures forall i :: 0 <= i < |months| ==> es[i] == Entry(Some(months[i]), 1)
  {
    seq(|months|, i requires 0 <= i < |months| => Entry(Some(months[i]), 1))
  }

  /** A row of the chart. */
  datatype MonthActivity = MonthActivity(name: string, commits: int, prs: int, reviews: int)

  function Report(bs: seq<Bucket>): (rows: seq<MonthActivity>)
    ensures |rows| == |bs|
    ensures forall k :: 0 <= k < |bs| ==>
      rows[k] == MonthActivity(MonthNames[bs[k].month], bs[k].commits, bs[k].prs, bs[k].reviews)
  {
    seq(|bs|, k requires 0 <= k < |bs| =>
      MonthActivity(MonthNames[bs[k].month], bs[k].commits, bs[k].prs, bs[k].reviews))
  }

  /** The twelve month names are distinct. */
  lemma MonthNamesDistinct(a: Month, b: Month)
    requires a != b
    ensures MonthNames[a] != MonthNames[b]
  {
  }

  /** The search for pull requests authored by `login` created after `since`. */
  function RecentPullRequestsQuery(login: string, since: string): string
  {
    "author:" + login + " type:pr created:>" + since
  }

  const RecentPullRequestsPageSize := 100

  /** The chart for a loaded calendar: six rows, oldest month first, each
      month's commits summed from the calendar days, its reviews counted from
      the sample, and its pull requests counted from the search results. */
  function MonthlyRows(now: Month, calendar: ContributionCalendar, sampleReviewMonths: seq<Month>,
                       prDates: seq<string>, parseDate: string -> Option<YearMonth>): (rows: seq<MonthActivity>)
    ensures |rows| == ChartMonths
    ensures forall i :: 0 <= i < ChartMonths ==>
      var m := MonthsBefore(now, ChartMonths - 1 - i);
      && rows[i].name == MonthNames[m]
      && rows[i].commits == MonthSum(CommitEntries(AllDays(calendar.weeks), parseDate), m)
      && rows[i].prs == MonthSum(OnePerDate(prDates, parseDate), m)
      && rows[i].reviews == MonthSum(OnePerMonth(sampleReviewMonths), m)
  {
    var commitEntries := CommitEntries(AllDays(calendar.weeks), parseDate);
    var reviewEntries := OnePerMonth(sampleReviewMonths);
    var prEntries := OnePerDate(prDates, parseDate);
    var b0 := InitialBuckets(now);
    var b3 := Tally(Tally(Tally(b0, Commits, commitEntries), Reviews, reviewEntries), PullRequests, prEntries);
    assert forall i | 0 <= i < ChartMonths ::
      && b3[i].month == MonthsBefore(now, ChartMonths - 1 - i)
      && b3[i].commits == MonthSum(commitEntries, b3[i].month)
      && b3[i].reviews == MonthSum(reviewEntries, b3[i].month)
      && b3[i].prs == MonthSum(prEntries, b3[i].month)
    by {
      forall i | 0 <= i < ChartMonths
        ensures b3[i].month == MonthsBefore(now, ChartMonths - 1 - i)
        ensures b3[i].commits == MonthSum(commitEntries, b3[i].month)
        ensures b3[i].reviews == MonthSum(reviewEntries, b3[i].month)
        ensures b3[i].prs == MonthSum(prEntries, b3[i].month)
      {
        TallyThree(b0, commitEntries, reviewEntries, prEntries, i);
      }
    }
    Report(b3)
  }

  /** The three tallies of the chart touch one field each. */
  lemma TallyThree(b0: seq<Bucket>, commitEntries: seq<Entry>, reviewEntries: seq<Entry>,
                   prEntries: seq<Entry>, i: nat)
    requires i < |b0|
    ensures var b3 := Tally(Tally(Tally(b0, Commits, commitEntries), Reviews, reviewEntries),
                            PullRequests, prEntries);
      && |b3| == |b0|
      && b3[i].month == b0[i].month
      && b3[i].commits == b0[i].commits + MonthSum(commitEntries, b0[i].month)
      && b3[i].reviews == b0[i].reviews + MonthSum(reviewEntries, b0[i].month)
      && b3[i].prs == b0[i].prs + MonthSum(prEntries, b0[i].month)
  {
    var b1 := Tally(b0, Commits, commitEntries);
    var b2 := Tally(b1, Reviews, reviewEntries);
    var b3 := Tally(b2, PullRequests, prEntries);
    assert Get(b1[i], Commits) == Get(b0[i], Commits) + MonthSum(commitEntries, b0[i].month);
    assert Get(b1[i], Reviews) == Get(b0[i], Reviews);
    assert Get(b1[i], PullRequests) == Get(b0[i], PullRequests);
    assert Get(b2[i], Commits) == Get(b1[i], Commits);
    assert Get(b2[i], Reviews) == Get(b1[i], Reviews) + MonthSum(reviewEntries, b1[i].month);
    assert Get(b2[i], PullRequests) == Get(b1[i], PullRequests);
    assert Get(b3[i], Commits) == Get(b2[i], Commits);
    assert Get(b3[i], Reviews) == Get(b2[i], Reviews);
    assert Get(b3[i], PullRequests) == Get(b2[i], PullRequests) + MonthSum(prEntries, b2[i].month);
  }

  /** `getMonthlyActivity`: the chart of the signed-in user's calendar, or `[]`
      when anything fails or there is no calendar. The clock (`now`, `since`),
      the date parser and the sample-review generator are parameters. */
  function GetMonthlyActivity(session: Option<Session>, svc: Services, now: YearMonth, since: string,
                              sampleReviewMonths: seq<Month>,
                              parseDate: string -> Option<YearMonth>): (rows: seq<MonthActivity>)
    ensures rows == [] || |rows| == ChartMonths
    ensures LoadCalendar(session, svc).Fail? ==> rows == []
    ensures LoadCalendar(session, svc).Ok? && LoadCalendar(session, svc).value.calendar.None? ==> rows == []
    ensures rows != [] ==>
      var loaded := LoadCalendar(session, svc).value;
      var search := svc.searchPullRequests(loaded.token, RecentPullRequestsQuery(loaded.login, since),
                                           RecentPullRequestsPageSize);
      && loaded.calendar.Some?
      && search.Ok?
      && rows == MonthlyRows(now.month, loaded.calendar.value, sampleReviewMonths, search.value.itemsCreatedAt, parseDate)
    ensures LoadCalendar(session, svc).Ok? && LoadCalendar(session, svc).value.calendar.Some? ==>
      var loaded := LoadCalendar(session, svc).value;
      var search := svc.searchPullRequests(loaded.token, RecentPullRequestsQuery(loaded.login, since),
                                           RecentPullRequestsPageSize);
      && (search.Fail? ==> rows == [])
      && (search.Ok? ==>
            rows == MonthlyRows(now.month, loaded.calendar.value, sampleReviewMonths, search.value.itemsCreatedAt, parseDate))
  {
    match LoadCalendar(session, svc)
    case Fail(_) => []
    case Ok(loaded) =>
      match loaded.calendar
      case None => []
      case Some(calendar) =>
        match svc.searchPullRequests(loaded.token, RecentPullRequestsQuery(loaded.login, since), RecentPullRequestsPageSize)
        case Fail(_) => []
        case Ok(found) => MonthlyRows(now.month, calendar, sampleReviewMonths, found.itemsCreatedAt, parseDate)
  }

  /** The six rows carry six different month names, so keying the buckets by
      name gives one key per row and the rows keep their insertion order,
      oldest month first. */
  lemma MonthlyRowsNamesDistinct(now: Month, calendar: ContributionCalendar, sampleReviewMonths: seq<Month>,
                                 prDates: seq<string>, parseDate: string -> Option<YearMonth>, i: nat, j: nat)
    requires i < j < ChartMonths
    ensures var rows := MonthlyRows(now, calendar, sampleReviewMonths, prDates, parseDate);
      rows[i].name != rows[j].name
  {
    var bs := InitialBuckets(now);
    MonthNamesDistinct(bs[i].month, bs[j].month);
  }

  /** The bucket key ignores the year: a day exactly one year before the
      current month lands in the current month's bucket. */
  lemma YearEarlierDayCounted(now: YearMonth, day: ContributionDay, parseDate: string -> Option<YearMonth>)
    requires parseDate(day.date) == Some(YearMonth(now.year - 1, now.month))
    ensures var bs := Tally(InitialBuckets(now.month), Commits, CommitEntries([day], parseDate));
      bs[ChartMonths - 1].commits == day.contributionCount
  {
    var es := CommitEntries([day], parseDate);
    assert es[0] == Entry(Some(now.month), day.contributionCount);
    assert MonthSum(es, now.month) == day.contributionCount + MonthSum(es[1..], now.month);
  }

  /** A day whose month is outside the chart adds nothing to any bucket. */
  lemma OutsideMonthIgnored(now: Month, day: ContributionDay, parseDate: string -> Option<YearMonth>, k: nat)
    requires k < ChartMonths
    requires MonthKey(parseDate, day.date) != Some(InitialBuckets(now)[k].month)
    ensures Tally(InitialBuckets(now), Commits, CommitEntries([day], parseDate))[k].commits == 0
  {
    var es := CommitEntries([day], parseDate);
    assert MonthSum(es, InitialBuckets(now)[k].month) == MonthSum(es[1..], InitialBuckets(now)[k].month);
  }
}

=== FILE: entities.dfy ===
/** The records the application reads and writes (database rows, GitHub
    payloads, the review event) and the external collaborators it calls,
    each collaborator an oracle from its arguments to what the awaited call
    returns or throws. */
module Entities {
  import opened Js

  /** The provider id of GitHub account rows. */
  const GithubProvider := "github"

  /** An authenticated session; the auth library always attaches its user. */
  datatype Session = Session(userId: string)

  /** A linked OAuth account row. */
  datatype Account = Account(userId: string, providerId: string, accessToken: JsString)

  /** The user owning a connected repository, with that user's accounts. */
  datatype RepositoryUser = RepositoryUser(id: string, accounts: seq<Account>)

  /** A connected repository row (loaded together with its user). */
  datatype Repository = Repository(id: string, owner: string, name: string, user: RepositoryUser)

  /** A review row: one per recorded review or recorded failure. */
  datatype ReviewRecord = ReviewRecord(
    repositoryId: string,
    prNumber: nat,
    prTitle: string,
    prUrl: string,
    review: string,
    status: string)

  /** What the pull-request fetch returns. */
  datatype PullRequestData = PullRequestData(diff: string, title: string, description: JsString)

  /** The payload of a `pr.review.requested` event. */
  datatype ReviewEvent = ReviewEvent(owner: string, repo: string, prNumber: nat, userId: string)

  /** One day of the GitHub contribution calendar. */
  datatype ContributionDay = ContributionDay(contributionCount: int, date: string, color: string)

  datatype Week = Week(contributionDays: seq<ContributionDay>)

  datatype ContributionCalendar = ContributionCalendar(totalContributions: int, weeks: seq<Week>)

  /** The part of an issue/PR search response the dashboard reads: the total
      count and each item's `created_at`. */
  datatype SearchResult = SearchResult(totalCount: int, itemsCreatedAt: seq<string>)

  /** The arguments of the "list repositories of the authenticated user" request. */
  datatype ListReposRequest = ListReposRequest(
    sort: string,
    direction: string,
    visibility: string,
    perPage: int,
    page: int)

  /** A call to an external collaborator, as recorded in a run's trace. */
  datatype Call =
    | FindAccount(userId: string, providerId: string)
    | FindRepository(owner: string, name: string)
    | CreateReview(record: ReviewRecord)
    | GetPullRequestDiff(token: string, owner: string, repo: string, prNumber: nat)
    | RetrieveContext(query: string, scope: string)
    | GenerateText(model: string, prompt: string)
    | PostReviewComment(token: string, owner: string, repo: string, prNumber: nat, body: string)
    | SendEvent(name: string, data: ReviewEvent)

  /** The external collaborators, one oracle per operation. */
  datatype Services = Services(
    findAccount: (string, string) -> Result<Option<Account>>,
    findRepository: (string, string) -> Result<Option<Repository>>,
    createReview: ReviewRecord -> Result<()>,
    getAuthenticatedLogin: string -> Result<string>,
    contributionCalendar: (string, string) -> Result<Option<ContributionCalendar>>,
    searchPullRequests: (string, string, nat) -> Result<SearchResult>,
    listRepositories: (string, ListReposRequest) -> Result<seq<string>>,
    getPullRequestDiff: (string, string, string, nat) -> Result<PullRequestData>,
    postReviewComment: (string, string, string, nat, string) -> Result<()>,
    retrieveContext: (string, string) -> Result<seq<string>>,
    generateText: (string, string) -> Result<string>,
    sendEvent: (string, ReviewEvent) -> Result<()>)

  /** The review rows a trace creates, in order. */
  function CreatedRecords(calls: seq<Call>): (rs: seq<ReviewRecord>)
    ensures |rs| <= |calls|
    ensures forall r :: r in rs <==> CreateReview(r) in calls
  {
    if |calls| == 0 then []
    else (if calls[0].CreateReview? then [calls[0].record] else []) + CreatedRecords(calls[1..])
  }

  /** The rows created by two traces run one after the other. */
  lemma {:induction false} CreatedRecordsAppend(a: seq<Call>, b: seq<Call>)
    ensures CreatedRecords(a + b) == CreatedRecords(a) + CreatedRecords(b)
    decreases |a|
  {
    if |a| > 0 {
      assert (a + b)[1..] == a[1..] + b;
      CreatedRecordsAppend(a[1..], b);
    } else {
      assert a + b == b;
    }
  }

  /** A trace without a create call creates no row. */
  lemma NoCreateNoRecords(calls: seq<Call>)
    requires forall i :: 0 <= i < |calls| ==> !calls[i].CreateReview?
    ensures CreatedRecords(calls) == []
  {
  }
}

=== FILE: formats.dfy ===
/** The strings the review flow builds from its inputs: the context-retrieval
    query and scope, the pull-request URL stored with each review row, and the
    review prompt sent to the language model. */
module Formats {
  import opened Js
  import opened Text

  // ---------------------------------------------------------------------
  // Context retrieval

  /** The retrieval query: the title, a newline, then the description as a
      template literal renders it (a `null` description becomes "null"). */
  function ContextQuery(title: string, description: JsString): (q: string)
    ensures '\n' !in title ==> SplitFirst(q, '\n') == Some((title, Interpolate(description)))
  {
    var q := title + "\n" + Interpolate(description);
    assert '\n' !in title ==> SplitFirst(q, '\n') == Some((title, Interpolate(description))) by {
      if '\n' !in title {
        SplitFirstOfConcat(title, '\n', Interpolate(description));
      }
    }
    q
  }

  /** The retrieval scope `owner/repo`; an owner name has no `/`, so the
      scope determines both parts. */
  function RepositoryScope(owner: string, repo: string): (s: string)
    ensures '/' !in owner ==> SplitFirst(s, '/') == Some((owner, repo))
  {
    var s := owner + "/" + repo;
    assert '/' !in owner ==> SplitFirst(s, '/') == Some((owner, repo)) by {
      if '/' !in owner {
        SplitFirstOfConcat(owner, '/', repo);
      }
    }
    s
  }

  // ---------------------------------------------------------------------
  // Pull-request URL

  const GithubPrefix := "https://github.com/"
  const PullSegment := "pull/"

  /** `https://github.com/{owner}/{repo}/pull/{prNumber}`. */
  function PullRequestUrl(owner: string, repo: string, prNumber: nat): (u: string)
    ensures GithubPrefix <= u
  {
    GithubPrefix + owner + "/" + repo + "/" + PullSegment + NatToString(prNumber)
  }

  /** Reads owner, repository and pull-request number back out of a URL of
      the shape `PullRequestUrl` builds. */
  function ParsePullRequestUrl(u: string): Option<(string, string, nat)>
  {
    if !(GithubPrefix <= u) then None
    else match SplitFirst(u[|GithubPrefix|..], '/')
      case None => None
      case Some((owner, afterOwner)) =>
        match SplitFirst(afterOwner, '/')
        case None => None
        case Some((repo, afterRepo)) =>
          if !(PullSegment <= afterRepo) then None
          else match ParseNat(afterRepo[|PullSegment|..])
            case None => None
            case Some(n) => Some((owner, repo, n))
  }

  /** The stored URL identifies the pull request: owner and repository names
      contain no `/`, so the URL parses back to the triple it was built from. */
  lemma PullRequestUrlRoundTrip(owner: string, repo: string, prNumber: nat)
    requires '/' !in owner && '/' !in repo
    ensures ParsePullRequestUrl(PullRequestUrl(owner, repo, prNumber)) == Some((owner, repo, prNumber))
  {
    var digits := NatToString(prNumber);
    var u := PullRequestUrl(owner, repo, prNumber);
    var afterOwner := repo + "/" + PullSegment + digits;
    var afterRepo := PullSegment + digits;
    assert u == GithubPrefix + (owner + "/" + afterOwner);
    assert u[|GithubPrefix|..] == owner + "/" + afterOwner;
    SplitFirstOfConcat(owner, '/', afterOwner);
    assert afterOwner == repo + "/" + afterRepo;
    SplitFirstOfConcat(repo, '/', afterRepo);
    assert afterRepo[|PullSegment|..] == digits;
    ParseNatToString(prNumber);
  }

  /** Two reviews store the same URL only for the same pull request. */
  lemma PullRequestUrlInjective(o1: string, r1: string, n1: nat, o2: string, r2: string, n2: nat)
    requires '/' !in o1 && '/' !in r1 && '/' !in o2 && '/' !in r2
    requires PullRequestUrl(o1, r1, n1) == PullRequestUrl(o2, r2, n2)
    ensures o1 == o2 && r1 == r2 && n1 == n2
  {
    PullRequestUrlRoundTrip(o1, r1, n1);
    PullRequestUrlRoundTrip(o2, r2, n2);
  }

  // ---------------------------------------------------------------------
  // Review prompt

  /** The model the review is generated with. */
  const ReviewModel := "gemini-2.5-flash"

  /** Placeholder used when the description is empty, `null` or `undefined`. */
  const NoDescription := "No description provided"

  /** Context snippets are separated by a blank line. */
  const ContextSeparator := "\n\n"

  /** The fixed text around the interpolated values. The instruction sections
      after the diff are represented by their headings only. */
  const PromptHeader := "# Updated Code Review Prompt\n\nYou are an expert code reviewer. Analyze the following pull request and provide a detailed, constructive code review.\n\n## PR Information\n**Title:** "
  const DescriptionLabel := "\n**Description:** "
  const ContextHeading := "\n\n## Context from Codebase\n"
  const DiffOpening := "\n\n## Code Changes\n```diff\n"
  const DiffClosing := "\n```\n\n"
  const ReviewRequirements := "## Review Requirements\n\n### 1. Walkthrough\n### 2. Sequence Diagram (if applicable)\n### 3. Summary\n### 4. Strengths\n### 5. Issues\n### 6. Suggestions\n### 7. Poem\n## Formatting Notes"

  /** `description || "No description provided"`. */
  function DescriptionShown(description: JsString): (r: string)
    ensures Truthy(description) ==> r == description.s
    ensures !Truthy(description) ==> r == NoDescription
    ensures r != ""
  {
    if Truthy(description) then description.s else NoDescription
  }

  /** The prompt as its sequence of parts: fixed text alternating with the
      title, the description (or the placeholder), the context snippets joined
      by blank lines, and the diff, in that order. */
  function PromptParts(title: string, description: JsString, context: seq<string>, diff: string): (parts: seq<string>)
    ensures |parts| == 10
    ensures parts[0] == PromptHeader && parts[2] == DescriptionLabel && parts[4] == ContextHeading
    ensures parts[6] == DiffOpening && parts[8] == DiffClosing && parts[9] == ReviewRequirements
    ensures parts[1] == title
    ensures parts[3] == DescriptionShown(description)
    ensures parts[5] == Join(context, ContextSeparator)
    ensures parts[7] == diff
  {
    [PromptHeader, title, DescriptionLabel, DescriptionShown(description), ContextHeading,
     Join(context, ContextSeparator), DiffOpening, diff, DiffClosing, ReviewRequirements]
  }

  /** The prompt text: the parts concatenated. */
  function ReviewPrompt(title: string, description: JsString, context: seq<string>, diff: string): string
  {
    Concat(PromptParts(title, description, context, diff))
  }

  /** Concatenation of a list of strings. */
  function Concat(parts: seq<string>): (r: string)
    ensures |r| == TotalLength(parts)
  {
    if |parts| == 0 then "" else parts[0] + Concat(parts[1..])
  }

  /** `v` occurs in `p` starting at `offset`. */
  predicate Slot(p: string, offset: nat, v: string)
  {
    offset + |v| <= |p| && p[offset..offset + |v|] == v
  }

  /** Each part sits in the concatenation right after the parts before it. */
  lemma {:induction false} ConcatSlot(parts: seq<string>, k: nat)
    requires k < |parts|
    ensures Slot(Concat(parts), TotalLength(parts[..k]), parts[k])
    decreases k
  {
    var r := Concat(parts);
    if k == 0 {
      assert parts[..0] == [];
      assert r[..|parts[0]|] == parts[0];
    } else {
      var rest := parts[1..];
      ConcatSlot(rest, k - 1);
      assert parts[..k][1..] == rest[..k - 1];
      assert TotalLength(parts[..k]) == |parts[0]| + TotalLength(rest[..k - 1]);
      var off := TotalLength(rest[..k - 1]);
      assert r == parts[0] + Concat(rest);
      assert r[|parts[0]| + off .. |parts[0]| + off + |parts[k]|] == Concat(rest)[off .. off + |rest[k - 1]|];
    }
  }

  /** The title, the description shown and the diff each appear in the prompt
      at the offset given by the lengths of everything before them. */
  lemma ReviewPromptInterpolation(title: string, description: JsString, context: seq<string>, diff: string)
    ensures var p := ReviewPrompt(title, description, context, diff);
      var parts := PromptParts(title, description, context, diff);
      && Slot(p, TotalLength(parts[..1]), title)
      && Slot(p, TotalLength(parts[..3]), DescriptionShown(description))
      && Slot(p, TotalLength(parts[..5]), Join(context, ContextSeparator))
      && Slot(p, TotalLength(parts[..7]), diff)
  {
    var parts := PromptParts(title, description, context, diff);
    ConcatSlot(parts, 1);
    ConcatSlot(parts, 3);
    ConcatSlot(parts, 5);
    ConcatSlot(parts, 7);
  }

  /** The generator cannot tell an empty, `null` or `undefined` description
      from one that literally reads "No description provided". */
  lemma FalsyDescriptionsShowPlaceholder(title: string, description: JsString, context: seq<string>, diff: string)
    requires !Truthy(description)
    ensures ReviewPrompt(title, description, context, diff) == ReviewPrompt(title, Str(NoDescription), context, diff)
  {
  }
}

=== FILE: github.dfy ===
/** The GitHub helpers: resolving the signed-in user's access token, fetching
    the contribution calendar with error wrapping, and listing repositories
    with default paging. */
module GithubLib {
  import opened Js
  import opened Entities


  const Unauthorized := "UnAuthorized"
  const AccountNotFound := "GitHub account not found"
  const TokenMissing := "GitHub token missing"

  /** The token of the signed-in user's GitHub account. Checks run in order
      session, account, token; the first that fails decides the error, and a
      failing account lookup propagates what it threw. */
  function GetGithubToken(session: Option<Session>, svc: Services): (r: Result<string>)
    ensures session.None? ==> r == Fail(Error(Unauthorized))
    ensures session.Some? ==>
      match svc.findAccount(session.value.userId, GithubProvider)
      case Fail(e) => r == Fail(e)
      case Ok(None) => r == Fail(Error(AccountNotFound))
      case Ok(Some(account)) =>
        if Truthy(account.accessToken) then r == Ok(account.accessToken.s)
        else r == Fail(Error(TokenMissing))
    ensures r.Ok? ==> r.value != ""
  {
    if session.None? then Fail(Error(Unauthorized))
    else
      var found := svc.findAccount(session.value.userId, GithubProvider);
      if found.Fail? then Fail(found.error)
      else if found.value.None? then Fail(Error(AccountNotFound))
      else
        var token := found.value.value.accessToken;
        if !Truthy(token) then Fail(Error(TokenMissing)) else Ok(token.s)
  }

  /** A token is returned exactly when there is a session, the account lookup
      finds an account, and that account's token is a non-empty string; the
      returned token is that string unchanged. */
  lemma GetGithubTokenSucceeds(session: Option<Session>, svc: Services, token: string)
    ensures GetGithubToken(session, svc) == Ok(token) <==>
      && session.Some?
      && svc.findAccount(session.value.userId, GithubProvider).Ok?
      && svc.findAccount(session.value.userId, GithubProvider).value.Some?
      && svc.findAccount(session.value.userId, GithubProvider).value.value.accessToken == Str(token)
      && token != ""
  {
  }

  // ---------------------------------------------------------------------
  // Contribution calendar

  const ContributionErrorPrefix := "Failed to fetch contributions: "

  /** The rethrow in the contribution fetch: an `Error` gets a new message with
      a fixed prefix; any other thrown value is rethrown as it is. */
  function WrapContributionError(t: Thrown): (w: Thrown)
    ensures w.Error? <==> t.Error?
    ensures t.Error? ==> ContributionErrorPrefix <= w.message
                         && w.message[|ContributionErrorPrefix|..] == t.message
    ensures t.NonError? ==> w == t
  {
    match t
    case Error(m) => Error(ContributionErrorPrefix + m)
    case NonError(_) => t
  }

  /** Wrapping loses nothing: distinct errors stay distinct. */
  lemma WrapContributionErrorInjective(a: Thrown, b: Thrown)
    requires WrapContributionError(a) == WrapContributionError(b)
    ensures a == b
  {
    if a.Error? {
      assert a.message == WrapContributionError(a).message[|ContributionErrorPrefix|..];
    }
  }

  /** The contribution calendar of `username`: what the query returns, or its
      failure with the message wrapped. */
  function FetchUserContribution(token: string, username: string, svc: Services): (r: Result<Option<ContributionCalendar>>)
    ensures svc.contributionCalendar(token, username).Ok? ==> r == svc.contributionCalendar(token, username)
    ensures r.Fail? <==> svc.contributionCalendar(token, username).Fail?
    ensures r.Fail? ==> r.error == WrapContributionError(svc.contributionCalendar(token, username).error)
  {
    match svc.contributionCalendar(token, username)
    case Ok(calendar) => Ok(calendar)
    case Fail(e) => Fail(WrapContributionError(e))
  }

  // ---------------------------------------------------------------------
  // Repository listing

  const DefaultPage := 1
  const DefaultPerPage := 10

  /** The listing request: most recently updated first, all visibilities,
      with `page` and `perPage` defaulting to 1 and 10 when not given. */
  function RepositoriesRequest(page: Option<int>, perPage: Option<int>): (q: ListReposRequest)
    ensures q.sort == "updated" && q.direction == "desc" && q.visibility == "all"
    ensures page.None? ==> q.page == DefaultPage
    ensures page.Some? ==> q.page == page.value
    ensures perPage.None? ==> q.perPage == DefaultPerPage
    ensures perPage.Some? ==> q.perPage == perPage.value
  {
    ListReposRequest(
      "updated",
      "desc",
      "all",
      if perPage.Some? then perPage.value else DefaultPerPage,
      if page.Some? then page.value else DefaultPage)
  }

  /** The repositories of the signed-in user: the token is resolved first and
      any failure there is the result; otherwise the listing call is made with
      that token and the defaulted request. */
  function GetRepositories(session: Option<Session>, page: Option<int>, perPage: Option<int>, svc: Services): (r: Result<seq<string>>)
    ensures GetGithubToken(session, svc).Fail? ==> r == Fail(GetGithubToken(session, svc).error)
    ensures GetGithubToken(session, svc).Ok? ==>
      r == svc.listRepositories(GetGithubToken(session, svc).value, RepositoriesRequest(page, perPage))
  {
    match GetGithubToken(session, svc)
    case Fail(e) => Fail(e)
    case Ok(token) => svc.listRepositories(token, RepositoriesRequest(page, perPage))
  }

  /** Leaving an argument out is the same call as passing its default: page 1
      and 10 per page, each independently of the other. */
  lemma OmittedArgumentsDefault(session: Option<Session>, page: Option<int>, perPage: Option<int>, svc: Services)
    ensures GetRepositories(session, None, perPage, svc) == GetRepositories(session, Some(DefaultPage), perPage, svc)
    ensures GetRepositories(session, page, None, svc) == GetRepositories(session, page, Some(DefaultPerPage), svc)
    ensures GetRepositories(session, None, None, svc) == GetRepositories(session, Some(1), Some(10), svc)
  {
  }
}

=== FILE: js.dfy ===
/** JavaScript values the application code branches on: optional results,
    thrown values, nullable strings and their truthiness. */
module Js {

  /** A value that may be absent (`null` / `undefined` from a lookup). */
  datatype Option<+T> = None | Some(value: T)

  /** What a `throw` carries: an `Error` instance with its message, or any
      other value (described by a string). */
  datatype Thrown = Error(message: string) | NonError(description: string)

  /** The outcome of an awaited call: the value it returned or what it threw. */
  datatype Result<+T> = Ok(value: T) | Fail(error: Thrown)

  /** A string-typed field that may also hold `null` or `undefined`. */
  datatype JsString = Str(s: string) | Null | Undefined

  /** JavaScript truthiness of a string-typed value: only a non-empty string is truthy. */
  predicate Truthy(v: JsString)
  {
    v.Str? && v.s != ""
  }

  /** How a template literal renders the value: `${null}` is "null",
      `${undefined}` is "undefined". */
  function Interpolate(v: JsString): (r: string)
    ensures v.Str? ==> r == v.s
    ensures v.Null? ==> r == "null"
    ensures v.Undefined? ==> r == "undefined"
    ensures r == "" ==> !Truthy(v)
  {
    match v
    case Str(s) => s
    case Null => "null"
    case Undefined => "undefined"
  }
}

=== FILE: review.dfy ===
/** The `generate-review` background function, run for each
    `pr.review.requested` event: five named steps run one after the other
    (fetch the pull request, retrieve context, generate the review, post it as
    a comment, save it), and a step that throws ends the run. */
module ReviewPipeline {
  import opened Js
  import opened Entities
  import opened Formats

  const NoTokenMessage := "No GitHub access token found"
  const CompletedStatus := "completed"

  datatype Step = FetchPrData | RetrieveContextStep | GenerateAiReview | PostComment | SaveReview

  /** The order the handler runs its steps in. */
  const StepOrder: seq<Step> := [FetchPrData, RetrieveContextStep, GenerateAiReview, PostComment, SaveReview]

  /** What a step did: the calls it made and what it returned or threw. */
  datatype StepOut<+T> = StepOut(calls: seq<Call>, result: Result<T>)

  /** A finished step in the run's log. */
  datatype StepLog = StepLog(step: Step, calls: seq<Call>, ok: bool)

  /** A run: the steps that ran, in order, and how the handler ended
      (`Ok(())` is its `{success: true}`). */
  datatype Run = Run(steps: seq<StepLog>, outcome: Result<()>)

  /** What the first step hands on: the fetched pull request and the token. */
  datatype PrPayload = PrPayload(diff: string, title: string, description: JsString, token: string)

  // ---------------------------------------------------------------------
  // The steps

  /** The GitHub token of the event's user, when the account lookup finds an
      account whose token is a non-empty string. */
  function AccountToken(svc: Services, userId: string): (t: Option<string>)
    ensures t.Some? <==>
      && svc.findAccount(userId, GithubProvider).Ok?
      && svc.findAccount(userId, GithubProvider).value.Some?
      && Truthy(svc.findAccount(userId, GithubProvider).value.value.accessToken)
    ensures t.Some? ==> Str(t.value) == svc.findAccount(userId, GithubProvider).value.value.accessToken
    ensures t.Some? ==> t.value != ""
  {
    match svc.findAccount(userId, GithubProvider)
    case Ok(Some(account)) => if Truthy(account.accessToken) then Some(account.accessToken.s) else None
    case _ => None
  }

  /** fetch-pr-data: look up the user's GitHub account; without a token the
      step throws before fetching anything, otherwise it fetches the pull
      request with that token and passes the token on. */
  function FetchPrDataStep(ev: ReviewEvent, svc: Services): (out: StepOut<PrPayload>)
    ensures |out.calls| >= 1 && out.calls[0] == FindAccount(ev.userId, GithubProvider)
    ensures svc.findAccount(ev.userId, GithubProvider).Ok? && AccountToken(svc, ev.userId).None? ==>
      out == StepOut([FindAccount(ev.userId, GithubProvider)], Fail(Error(NoTokenMessage)))
    ensures |out.calls| > 1 <==> AccountToken(svc, ev.userId).Some?
    ensures AccountToken(svc, ev.userId).Some? ==>
      var token := AccountToken(svc, ev.userId).value;
      var fetched := svc.getPullRequestDiff(token, ev.owner, ev.repo, ev.prNumber);
      && out.calls == [FindAccount(ev.userId, GithubProvider), GetPullRequestDiff(token, ev.owner, ev.repo, ev.prNumber)]
      && out.result.Ok? == fetched.Ok?
      && (fetched.Fail? ==> out.result == Fail(fetched.error))
      && (fetched.Ok? ==>
            out.result.value == PrPayload(fetched.value.diff, fetched.value.title, fetched.value.description, token))
    ensures CreatedRecords(out.calls) == []
  {
    var lookup := FindAccount(ev.userId, GithubProvider);
    match svc.findAccount(ev.userId, GithubProvider)
    case Fail(e) => StepOut([lookup], Fail(e))
    case Ok(found) =>
      if found.None? || !Truthy(found.value.accessToken) then StepOut([lookup], Fail(Error(NoTokenMessage)))
      else
        var token := found.value.accessToken.s;
        var fetch := GetPullRequestDiff(token, ev.owner, ev.repo, ev.prNumber);
        match svc.getPullRequestDiff(token, ev.owner, ev.repo, ev.prNumber)
        case Fail(e) => StepOut([lookup, fetch], Fail(e))
        case Ok(data) => StepOut([lookup, fetch], Ok(PrPayload(data.diff, data.title, data.description, token)))
  }

  /** retrieve-context: query with title and description, scoped to the
      repository. */
  function RetrieveContextOf(ev: ReviewEvent, pr: PrPayload, svc: Services): (out: StepOut<seq<string>>)
    ensures out.calls == [RetrieveContext(ContextQuery(pr.title, pr.description), RepositoryScope(ev.owner, ev.repo))]
    ensures out.result == svc.retrieveContext(ContextQuery(pr.title, pr.description), RepositoryScope(ev.owner, ev.repo))
    ensures CreatedRecords(out.calls) == []
  {
    var query := ContextQuery(pr.title, pr.description);
    var scope := RepositoryScope(ev.owner, ev.repo);
    StepOut([RetrieveContext(query, scope)], svc.retrieveContext(query, scope))
  }

  /** generate-ai-review: one generation call with the review prompt; its text
      is the review. */
  function GenerateReviewText(pr: PrPayload, context: seq<string>, svc: Services): (out: StepOut<string>)
    ensures out.calls == [GenerateText(ReviewModel, ReviewPrompt(pr.title, pr.description, context, pr.diff))]
    ensures out.result == svc.generateText(ReviewModel, ReviewPrompt(pr.title, pr.description, context, pr.diff))
    ensures CreatedRecords(out.calls) == []
  {
    var prompt := ReviewPrompt(pr.title, pr.description, context, pr.diff);
    StepOut([GenerateText(ReviewModel, prompt)], svc.generateText(ReviewModel, prompt))
  }

  /** post-comment: the review text, unchanged, as a comment on the pull request. */
  function PostCommentOf(ev: ReviewEvent, token: string, review: string, svc: Services): (out: StepOut<()>)
    ensures out.calls == [PostReviewComment(token, ev.owner, ev.repo, ev.prNumber, review)]
    ensures out.result == svc.postReviewComment(token, ev.owner, ev.repo, ev.prNumber, review)
    ensures CreatedRecords(out.calls) == []
  {
    StepOut([PostReviewComment(token, ev.owner, ev.repo, ev.prNumber, review)],
            svc.postReviewComment(token, ev.owner, ev.repo, ev.prNumber, review))
  }

  /** The row a successful run saves. */
  function CompletedRecord(repositoryId: string, ev: ReviewEvent, title: string, review: string): (rec: ReviewRecord)
    ensures rec.status == CompletedStatus && rec.prTitle == title && rec.review == review
    ensures rec.prUrl == PullRequestUrl(ev.owner, ev.repo, ev.prNumber)
    ensures rec.repositoryId == repositoryId && rec.prNumber == ev.prNumber
  {
    ReviewRecord(repositoryId, ev.prNumber, title, PullRequestUrl(ev.owner, ev.repo, ev.prNumber), review, CompletedStatus)
  }

  /** save-review: look the repository up by owner and name; if it is found,
      create one completed row, otherwise do nothing. */
  function SaveReviewOf(ev: ReviewEvent, title: string, review: string, svc: Services): (out: StepOut<()>)
    ensures |out.calls| >= 1 && out.calls[0] == FindRepository(ev.owner, ev.repo)
    ensures svc.findRepository(ev.owner, ev.repo).Fail? ==>
      && out == StepOut([FindRepository(ev.owner, ev.repo)], Fail(svc.findRepository(ev.owner, ev.repo).error))
      && CreatedRecords(out.calls) == []
    ensures svc.findRepository(ev.owner, ev.repo) == Ok(None) ==>
      && out == StepOut([FindRepository(ev.owner, ev.repo)], Ok(()))
      && CreatedRecords(out.calls) == []
    ensures svc.findRepository(ev.owner, ev.repo).Ok? && svc.findRepository(ev.owner, ev.repo).value.Some? ==>
      var rec := CompletedRecord(svc.findRepository(ev.owner, ev.repo).value.value.id, ev, title, review);
      && out == StepOut([FindRepository(ev.owner, ev.repo), CreateReview(rec)], svc.createReview(rec))
      && CreatedRecords(out.calls) == [rec]
  {
    var lookup := FindRepository(ev.owner, ev.repo);
    match svc.findRepository(ev.owner, ev.repo)
    case Fail(e) => StepOut([lookup], Fail(e))
    case Ok(None) => StepOut([lookup], Ok(()))
    case Ok(Some(repository)) =>
      var rec := CompletedRecord(repository.id, ev, title, review);
      assert CreatedRecords([lookup, CreateReview(rec)]) == [rec] by {
        assert [lookup, CreateReview(rec)][1..] == [CreateReview(rec)];
        assert [CreateReview(rec)][1..] == [];
      }
      StepOut([lookup, CreateReview(rec)], svc.createReview(rec))
  }

  // ---------------------------------------------------------------------
  // The run

  function Log<T>(step: Step, out: StepOut<T>): StepLog
  {
    StepLog(step, out.calls, out.result.Ok?)
  }

  /** Every call of the run, step by step. */
  function AllCalls(steps: seq<StepLog>): seq<Call>
  {
    if |steps| == 0 then [] else steps[0].calls + AllCalls(steps[1..])
  }

  /** The steps of a run from step number `first` on: they ran in the fixed
      order, every step but the last finished and created no rows, the run
      succeeded exactly when all remaining steps ran and the last finished,
      and a run that stopped early created no rows in its last step either. */
  ghost predicate RunFrom(run: Run, first: nat)
  {
    && first < |StepOrder|
    && 1 <= |run.steps| <= |StepOrder| - first
    && (forall i :: 0 <= i < |run.steps| ==> run.steps[i].step == StepOrder[first + i])
    && (forall i :: 0 <= i < |run.steps| - 1 ==> run.steps[i].ok && CreatedRecords(run.steps[i].calls) == [])
    && (run.outcome.Ok? <==> |run.steps| == |StepOrder| - first && run.steps[|run.steps| - 1].ok)
    && (run.outcome.Fail? <==> !run.steps[|run.steps| - 1].ok)
    && (|run.steps| < |StepOrder| - first ==> CreatedRecords(run.steps[|run.steps| - 1].calls) == [])
  }

  /** A step that threw ends the run with its error. */
  function Stop(l: StepLog, e: Thrown): (run: Run)
    requires !l.ok
    ensures run.steps == [l] && run.outcome == Fail(e)
  {
    Run([l], Fail(e))
  }

  /** A step that finished, followed by the rest of the run. */
  function Then(l: StepLog, rest: Run): (run: Run)
    ensures run.steps == [l] + rest.steps && run.outcome == rest.outcome
  {
    Run([l] + rest.steps, rest.outcome)
  }

  /** A step that threw, having created no rows unless it is save-review, is
      a run from that step on. */
  lemma StopRunFrom(l: StepLog, e: Thrown, first: nat)
    requires first < |StepOrder| && l.step == StepOrder[first] && !l.ok
    requires first + 1 < |StepOrder| ==> CreatedRecords(l.calls) == []
    ensures RunFrom(Stop(l, e), first)
  {
  }

  /** A finished step that created no rows, followed by a run of the later
      steps, is a run from that step on. */
  lemma ThenRunFrom(l: StepLog, rest: Run, first: nat)
    requires first + 1 < |StepOrder| && l.step == StepOrder[first] && l.ok && CreatedRecords(l.calls) == []
    requires RunFrom(rest, first + 1)
    ensures RunFrom(Then(l, rest), first)
  {
    var run := Then(l, rest);
    assert forall i :: 1 <= i < |run.steps| ==> run.steps[i] == rest.steps[i - 1];
    assert run.steps[|run.steps| - 1] == rest.steps[|rest.steps| - 1];
  }

  /** save-review on its own. */
  function FromSave(ev: ReviewEvent, title: string, review: string, svc: Services): (run: Run)
    ensures RunFrom(run, 4)
    ensures run.steps[0] == Log(SaveReview, SaveReviewOf(ev, title, review, svc))
    ensures SaveReviewOf(ev, title, review, svc).result.Fail? ==>
      run.outcome == Fail(SaveReviewOf(ev, title, review, svc).result.error)
  {
    var s5 := SaveReviewOf(ev, title, review, svc);
    Run([Log(SaveReview, s5)], if s5.result.Ok? then Ok(()) else Fail(s5.result.error))
  }

  /** post-comment, then save-review. */
  function FromPost(ev: ReviewEvent, pr: PrPayload, review: string, svc: Services): (run: Run)
    ensures RunFrom(run, 3)
    ensures run.steps[0] == Log(PostComment, PostCommentOf(ev, pr.token, review, svc))
    ensures |run.steps| > 1 <==> PostCommentOf(ev, pr.token, review, svc).result.Ok?
    ensures |run.steps| > 1 ==> run.steps[1..] == FromSave(ev, pr.title, review, svc).steps
    ensures PostCommentOf(ev, pr.token, review, svc).result.Fail? ==>
      run.outcome == Fail(PostCommentOf(ev, pr.token, review, svc).result.error)
    ensures PostCommentOf(ev, pr.token, review, svc).result.Ok? ==>
      run.outcome == FromSave(ev, pr.title, review, svc).outcome
  {
    var s4 := PostCommentOf(ev, pr.token, review, svc);
    var l4 := Log(PostComment, s4);
    if s4.result.Fail? then
      StopRunFrom(l4, s4.result.error, 3);
      Stop(l4, s4.result.error)
    else
      var rest := FromSave(ev, pr.title, review, svc);
      ThenRunFrom(l4, rest, 3);
      Then(l4, rest)
  }

  /** generate-ai-review and the steps after it. */
  function FromGenerate(ev: ReviewEvent, pr: PrPayload, context: seq<string>, svc: Services): (run: Run)
    ensures RunFrom(run, 2)
    ensures run.steps[0] == Log(GenerateAiReview, GenerateReviewText(pr, context, svc))
    ensures |run.steps| > 1 <==> GenerateReviewText(pr, context, svc).result.Ok?
    ensures |run.steps| > 1 ==>
      var text := GenerateReviewText(pr, context, svc).result;
      text.Ok? && run.steps[1..] == FromPost(ev, pr, text.value, svc).steps
    ensures var text := GenerateReviewText(pr, context, svc).result;
      && (text.Fail? ==> run.outcome == Fail(text.error))
      && (text.Ok? ==> run.outcome == FromPost(ev, pr, text.value, svc).outcome)
  {
    var s3 := GenerateReviewText(pr, context, svc);
    var l3 := Log(GenerateAiReview, s3);
    if s3.result.Fail? then
      StopRunFrom(l3, s3.result.error, 2);
      Stop(l3, s3.result.error)
    else
      var rest := FromPost(ev, pr, s3.result.value, svc);
      ThenRunFrom(l3, rest, 2);
      Then(l3, rest)
  }

  /** retrieve-context and the steps after it. */
  function FromRetrieve(ev: ReviewEvent, pr: PrPayload, svc: Services): (run: Run)
    ensures RunFrom(run, 1)
    ensures run.steps[0] == Log(RetrieveContextStep, RetrieveContextOf(ev, pr, svc))
    ensures |run.steps| > 1 <==> RetrieveContextOf(ev, pr, svc).result.Ok?
    ensures |run.steps| > 1 ==>
      var context := RetrieveContextOf(ev, pr, svc).result;
      context.Ok? && run.steps[1..] == FromGenerate(ev, pr, context.value, svc).steps
    ensures var context := RetrieveContextOf(ev, pr, svc).result;
      && (context.Fail? ==> run.outcome == Fail(context.error))
      && (context.Ok? ==> run.outcome == FromGenerate(ev, pr, context.value, svc).outcome)
  {
    var s2 := RetrieveContextOf(ev, pr, svc);
    var l2 := Log(RetrieveContextStep, s2);
    if s2.result.Fail? then
      StopRunFrom(l2, s2.result.error, 1);
      Stop(l2, s2.result.error)
    else
      var rest := FromGenerate(ev, pr, s2.result.value, svc);
      ThenRunFrom(l2, rest, 1);
      Then(l2, rest)
  }

  /** The handler: the five steps in order, the first failure ending the run. */
  function GenerateReview(ev: ReviewEvent, svc: Services): (run: Run)
    ensures RunFrom(run, 0)
    ensures run.steps[0] == Log(FetchPrData, FetchPrDataStep(ev, svc))
    ensures |run.steps| > 1 <==> FetchPrDataStep(ev, svc).result.Ok?
    ensures |run.steps| > 1 ==>
      var pr := FetchPrDataStep(ev, svc).result;
      pr.Ok? && run.steps[1..] == FromRetrieve(ev, pr.value, svc).steps
    ensures var pr := FetchPrDataStep(ev, svc).result;
      && (pr.Fail? ==> run.outcome == Fail(pr.error))
      && (pr.Ok? ==> run.outcome == FromRetrieve(ev, pr.value, svc).outcome)
  {
    var s1 := FetchPrDataStep(ev, svc);
    var l1 := Log(FetchPrData, s1);
    if s1.result.Fail? then
      StopRunFrom(l1, s1.result.error, 0);
      Stop(l1, s1.result.error)
    else
      var rest := FromRetrieve(ev, s1.result.value, svc);
      ThenRunFrom(l1, rest, 0);
      Then(l1, rest)
  }

  // ---------------------------------------------------------------------
  // Properties of a run

  /** A step that fails is the last one: nothing after it runs. */
  lemma FailureStopsLaterSteps(ev: ReviewEvent, svc: Services, k: nat)
    requires k < |GenerateReview(ev, svc).steps|
    requires !GenerateReview(ev, svc).steps[k].ok
    ensures |GenerateReview(ev, svc).steps| == k + 1
    ensures GenerateReview(ev, svc).outcome.Fail?
  {
  }

  /** Without a usable token the run stops in its first step, having made only
      the account lookup: the pull request is never fetched. */
  lemma MissingTokenStopsBeforeFetch(ev: ReviewEvent, svc: Services)
    requires svc.findAccount(ev.userId, GithubProvider).Ok?
    requires AccountToken(svc, ev.userId).None?
    ensures GenerateReview(ev, svc) ==
      Run([StepLog(FetchPrData, [FindAccount(ev.userId, GithubProvider)], false)], Fail(Error(NoTokenMessage)))
  {
  }

  /** A failing account lookup ends the run in its first step with the
      lookup's own error. */
  lemma AccountLookupFailureEndsRun(ev: ReviewEvent, svc: Services)
    requires svc.findAccount(ev.userId, GithubProvider).Fail?
    ensures GenerateReview(ev, svc) ==
      Run([StepLog(FetchPrData, [FindAccount(ev.userId, GithubProvider)], false)],
          Fail(svc.findAccount(ev.userId, GithubProvider).error))
  {
  }

  /** A pull-request fetch that throws ends the run in its first step, after
      the account lookup and the fetch, with the fetch's own error. */
  lemma FetchFailureEndsRun(ev: ReviewEvent, svc: Services)
    requires AccountToken(svc, ev.userId).Some?
    requires svc.getPullRequestDiff(AccountToken(svc, ev.userId).value, ev.owner, ev.repo, ev.prNumber).Fail?
    ensures var token := AccountToken(svc, ev.userId).value;
      GenerateReview(ev, svc) ==
        Run([StepLog(FetchPrData, [FindAccount(ev.userId, GithubProvider),
                                   GetPullRequestDiff(token, ev.owner, ev.repo, ev.prNumber)], false)],
            Fail(svc.getPullRequestDiff(token, ev.owner, ev.repo, ev.prNumber).error))
  {
  }

  /** A step that throws decides the run's failure: retrieval and generation
      end the run with their own error. */
  lemma LaterStepFailureIsRunFailure(ev: ReviewEvent, svc: Services)
    requires FetchPrDataStep(ev, svc).result.Ok?
    ensures var pr := FetchPrDataStep(ev, svc).result.value;
      var context := RetrieveContextOf(ev, pr, svc).result;
      && (context.Fail? ==> GenerateReview(ev, svc).outcome == Fail(context.error))
      && (context.Ok? && GenerateReviewText(pr, context.value, svc).result.Fail? ==>
            GenerateReview(ev, svc).outcome == Fail(GenerateReviewText(pr, context.value, svc).result.error))
  {
  }

  /** Likewise for the last two steps: a failing post, or a failing save
      after a successful post, is the run's failure. */
  lemma PostOrSaveFailureIsRunFailure(ev: ReviewEvent, svc: Services)
    requires FetchPrDataStep(ev, svc).result.Ok?
    requires var pr := FetchPrDataStep(ev, svc).result.value;
      && RetrieveContextOf(ev, pr, svc).result.Ok?
      && GenerateReviewText(pr, RetrieveContextOf(ev, pr, svc).result.value, svc).result.Ok?
    ensures var pr := FetchPrDataStep(ev, svc).result.value;
      var review := GenerateReviewText(pr, RetrieveContextOf(ev, pr, svc).result.value, svc).result.value;
      var posted := PostCommentOf(ev, pr.token, review, svc).result;
      var saved := SaveReviewOf(ev, pr.title, review, svc).result;
      && (posted.Fail? ==> GenerateReview(ev, svc).outcome == Fail(posted.error))
      && (posted.Ok? && saved.Fail? ==> GenerateReview(ev, svc).outcome == Fail(saved.error))
  {
  }

  /** Once the pull request is fetched, retrieval runs second and queries
      with the fetched title and description, scoped to `owner/repo`. */
  lemma RetrievalUsesFetchedPullRequest(ev: ReviewEvent, svc: Services)
    requires FetchPrDataStep(ev, svc).result.Ok?
    ensures var pr := FetchPrDataStep(ev, svc).result.value;
      && |GenerateReview(ev, svc).steps| >= 2
      && GenerateReview(ev, svc).steps[1].calls ==
           [RetrieveContext(ContextQuery(pr.title, pr.description), RepositoryScope(ev.owner, ev.repo))]
  {
    var pr := FetchPrDataStep(ev, svc).result.value;
    assert GenerateReview(ev, svc).steps[1..] == FromRetrieve(ev, pr, svc).steps;
  }

  /** Once generation succeeds, post-comment runs fourth and posts exactly the
      generated text with the token found in the first step. */
  lemma PostsGeneratedText(ev: ReviewEvent, svc: Services)
    requires FetchPrDataStep(ev, svc).result.Ok?
    requires var pr := FetchPrDataStep(ev, svc).result.value;
      && RetrieveContextOf(ev, pr, svc).result.Ok?
      && GenerateReviewText(pr, RetrieveContextOf(ev, pr, svc).result.value, svc).result.Ok?
    ensures var pr := FetchPrDataStep(ev, svc).result.value;
      var review := GenerateReviewText(pr, RetrieveContextOf(ev, pr, svc).result.value, svc).result.value;
      && |GenerateReview(ev, svc).steps| >= 4
      && GenerateReview(ev, svc).steps[3].calls == [PostReviewComment(pr.token, ev.owner, ev.repo, ev.prNumber, review)]
  {
    var steps := GenerateReview(ev, svc).steps;
    var pr := FetchPrDataStep(ev, svc).result.value;
    var context := RetrieveContextOf(ev, pr, svc).result.value;
    var review := GenerateReviewText(pr, context, svc).result.value;
    var r1 := FromRetrieve(ev, pr, svc);
    assert steps[1..] == r1.steps;
    var r2 := FromGenerate(ev, pr, context, svc);
    assert r1.steps[1..] == r2.steps;
    var r3 := FromPost(ev, pr, review, svc);
    assert r2.steps[1..] == r3.steps;
    assert steps[3] == r3.steps[0];
  }

  /** Fetch, retrieval, generation and post all succeeding. */
  predicate ReachesSave(ev: ReviewEvent, svc: Services)
  {
    && FetchPrDataStep(ev, svc).result.Ok?
    && var pr := FetchPrDataStep(ev, svc).result.value;
    && RetrieveContextOf(ev, pr, svc).result.Ok?
    && var context := RetrieveContextOf(ev, pr, svc).result.value;
    && GenerateReviewText(pr, context, svc).result.Ok?
    && PostCommentOf(ev, pr.token, GenerateReviewText(pr, context, svc).result.value, svc).result.Ok?
  }

  /** A run reaches save-review exactly when the four steps before it succeed. */
  lemma ReachesSaveIffFullRun(ev: ReviewEvent, svc: Services)
    ensures ReachesSave(ev, svc) <==> |GenerateReview(ev, svc).steps| == |StepOrder|
  {
    var steps := GenerateReview(ev, svc).steps;
    if |steps| > 1 {
      var pr := FetchPrDataStep(ev, svc).result.value;
      var r1 := FromRetrieve(ev, pr, svc);
      assert |steps| == 1 + |r1.steps|;
      if |r1.steps| > 1 {
        var context := RetrieveContextOf(ev, pr, svc).result.value;
        var r2 := FromGenerate(ev, pr, context, svc);
        assert |r1.steps| == 1 + |r2.steps|;
        if |r2.steps| > 1 {
          var review := GenerateReviewText(pr, context, svc).result.value;
          var r3 := FromPost(ev, pr, review, svc);
          assert |r2.steps| == 1 + |r3.steps|;
        }
      }
    }
  }

  /** In a run that reached save-review, the later steps are those of the
      values the earlier steps produced. */
  lemma FullRunSteps(ev: ReviewEvent, svc: Services)
    requires ReachesSave(ev, svc)
    ensures var steps := GenerateReview(ev, svc).steps;
      var pr := FetchPrDataStep(ev, svc).result.value;
      var context := RetrieveContextOf(ev, pr, svc).result.value;
      var review := GenerateReviewText(pr, context, svc).result.value;
      && |steps| == |StepOrder|
      && steps[2] == Log(GenerateAiReview, GenerateReviewText(pr, context, svc))
      && steps[3] == Log(PostComment, PostCommentOf(ev, pr.token, review, svc))
      && steps[4] == Log(SaveReview, SaveReviewOf(ev, pr.title, review, svc))
  {
    ReachesSaveIffFullRun(ev, svc);
    var steps := GenerateReview(ev, svc).steps;
    var pr := FetchPrDataStep(ev, svc).result.value;
    var r1 := FromRetrieve(ev, pr, svc);
    assert steps[1..] == r1.steps;
    var context := RetrieveContextOf(ev, pr, svc).result.value;
    var r2 := FromGenerate(ev, pr, context, svc);
    assert r1.steps[1..] == r2.steps;
    var review := GenerateReviewText(pr, context, svc).result.value;
    var r3 := FromPost(ev, pr, review, svc);
    assert r2.steps[1..] == r3.steps;
    assert r3.steps[1..] == FromSave(ev, pr.title, review, svc).steps;
    assert steps[2] == r2.steps[0];
    assert steps[3] == r3.steps[0];
    assert steps[4] == r3.steps[1];
  }

  /** Only save-review creates rows: the rows of a run are those of its fifth
      step, and a run that stopped earlier has none. */
  lemma RunRecords(run: Run)
    requires RunFrom(run, 0)
    ensures CreatedRecords(AllCalls(run.steps)) ==
      if |run.steps| == |StepOrder| then CreatedRecords(run.steps[4].calls) else []
  {
    AllCallsRecords(run.steps);
    OnlyLastStepRecords(run.steps);
  }

  /** A run reaching save-review for a repository that is found issues
      exactly one create call: for the completed row of that repository, with
      the fetched title, the pull request's URL and the generated review. */
  lemma SavesOneCompletedRecord(ev: ReviewEvent, svc: Services, repository: Repository)
    requires ReachesSave(ev, svc)
    requires svc.findRepository(ev.owner, ev.repo) == Ok(Some(repository))
    ensures var pr := FetchPrDataStep(ev, svc).result.value;
      var review := GenerateReviewText(pr, RetrieveContextOf(ev, pr, svc).result.value, svc).result.value;
      var rec := CompletedRecord(repository.id, ev, pr.title, review);
      && CreatedRecords(AllCalls(GenerateReview(ev, svc).steps)) == [rec]
      && rec.repositoryId == repository.id && rec.prNumber == ev.prNumber
      && rec.status == CompletedStatus && rec.prTitle == pr.title && rec.review == review
      && rec.prUrl == PullRequestUrl(ev.owner, ev.repo, ev.prNumber)
  {
    ReachesSaveIffFullRun(ev, svc);
    RunRecords(GenerateReview(ev, svc));
    FullRunSteps(ev, svc);
  }

  /** Whether that row is stored is the run's outcome: a run that reaches
      save-review for a found repository succeeds exactly when the database
      accepts the completed row, and a rejected write fails the run. */
  lemma CompletedRecordStoredIffSuccess(ev: ReviewEvent, svc: Services, repository: Repository)
    requires ReachesSave(ev, svc)
    requires svc.findRepository(ev.owner, ev.repo) == Ok(Some(repository))
    ensures var pr := FetchPrDataStep(ev, svc).result.value;
      var review := GenerateReviewText(pr, RetrieveContextOf(ev, pr, svc).result.value, svc).result.value;
      GenerateReview(ev, svc).outcome.Ok? <==> svc.createReview(CompletedRecord(repository.id, ev, pr.title, review)).Ok?
  {
    ReachesSaveIffFullRun(ev, svc);
    FullRunSteps(ev, svc);
  }

  /** When the repository is not found the run records nothing and still
      succeeds. */
  lemma MissingRepositoryRecordsNothing(ev: ReviewEvent, svc: Services)
    requires ReachesSave(ev, svc)
    requires svc.findRepository(ev.owner, ev.repo) == Ok(None)
    ensures CreatedRecords(AllCalls(GenerateReview(ev, svc).steps)) == []
    ensures GenerateReview(ev, svc).outcome == Ok(())
  {
    ReachesSaveIffFullRun(ev, svc);
    RunRecords(GenerateReview(ev, svc));
    FullRunSteps(ev, svc);
  }

  /** A run that stops before save-review records nothing; no run records more
      than one row. */
  lemma AtMostOneRecord(ev: ReviewEvent, svc: Services)
    ensures |CreatedRecords(AllCalls(GenerateReview(ev, svc).steps))| <= 1
    ensures |GenerateReview(ev, svc).steps| < |StepOrder| ==>
      CreatedRecords(AllCalls(GenerateReview(ev, svc).steps)) == []
  {
    RunRecords(GenerateReview(ev, svc));
    ReachesSaveIffFullRun(ev, svc);
    if |GenerateReview(ev, svc).steps| == |StepOrder| {
      FullRunSteps(ev, svc);
    }
  }

  /** The rows created by each step, step by step. */
  function StepRecords(steps: seq<StepLog>): seq<ReviewRecord>
  {
    if |steps| == 0 then [] else CreatedRecords(steps[0].calls) + StepRecords(steps[1..])
  }

  /** The rows a run creates are those its steps create, in step order. */
  lemma {:induction false} AllCallsRecords(steps: seq<StepLog>)
    ensures CreatedRecords(AllCalls(steps)) == StepRecords(steps)
    decreases |steps|
  {
    if |steps| > 0 {
      CreatedRecordsAppend(steps[0].calls, AllCalls(steps[1..]));
      AllCallsRecords(steps[1..]);
    }
  }

  /** When only the last step can create rows, the run's rows are that step's. */
  lemma {:induction false} OnlyLastStepRecords(steps: seq<StepLog>)
    requires |steps| >= 1
    requires forall i :: 0 <= i < |steps| - 1 ==> CreatedRecords(steps[i].calls) == []
    ensures StepRecords(steps) == CreatedRecords(steps[|steps| - 1].calls)
    decreases |steps|
  {
    if |steps| > 1 {
      OnlyLastStepRecords(steps[1..]);
    }
  }
}

=== FILE: text.dfy ===
/** String operations the application relies on: `Array.prototype.join`,
    the decimal rendering of a non-negative integer, and splitting a string
    at the first occurrence of a separator character. */
module Text {
  import opened Js

  // ---------------------------------------------------------------------
  // Joining

  /** Sum of the lengths of the parts. */
  function TotalLength(parts: seq<string>): nat
  {
    if |parts| == 0 then 0 else |parts[0]| + TotalLength(parts[1..])
  }

  /** `parts.join(sep)`: the parts in order with `sep` between neighbours. */
  function Join(parts: seq<string>, sep: string): (r: string)
    ensures |parts| == 0 ==> r == ""
    ensures |parts| == 1 ==> r == parts[0]
    ensures |parts| > 0 ==> |r| == TotalLength(parts) + (|parts| - 1) * |sep|
  {
    if |parts| == 0 then ""
    else if |parts| == 1 then parts[0]
    else parts[0] + sep + Join(parts[1..], sep)
  }

  /** Joining two non-empty lists is joining each and putting one separator
      between the results. */
  lemma {:induction false} JoinAppend(a: seq<string>, b: seq<string>, sep: string)
    requires |a| > 0 && |b| > 0
    ensures Join(a + b, sep) == Join(a, sep) + sep + Join(b, sep)
    decreases |a|
  {
    if |a| == 1 {
      assert (a + b)[1..] == b;
    } else {
      assert (a + b)[1..] == a[1..] + b;
      JoinAppend(a[1..], b, sep);
    }
  }

  // ---------------------------------------------------------------------
  // Decimal numbers

  predicate IsDigit(c: char)
  {
    '0' <= c <= '9'
  }

  predicate AllDigits(s: string)
  {
    forall i :: 0 <= i < |s| ==> IsDigit(s[i])
  }

  function DigitChar(d: nat): (c: char)
    requires d < 10
    ensures IsDigit(c) && c as int - '0' as int == d
  {
    (d + '0' as int) as char
  }

  /** `${n}` for a non-negative integer: its decimal digits, most significant
      first, with no leading zero. */
  function NatToString(n: nat): (s: string)
    ensures |s| >= 1 && AllDigits(s)
    ensures s[0] == '0' ==> n == 0
    decreases n
  {
    if n < 10 then [DigitChar(n)] else NatToString(n / 10) + [DigitChar(n % 10)]
  }

  /** The value of a string of decimal digits. */
  function DigitsValue(s: string): nat
    requires AllDigits(s)
    decreases |s|
  {
    if |s| == 0 then 0
    else 10 * DigitsValue(s[..|s| - 1]) + (s[|s| - 1] as int - '0' as int)
  }

  /** Reads a non-empty run of decimal digits back as a number. */
  function ParseNat(s: string): (r: Option<nat>)
    ensures r.Some? <==> |s| > 0 && AllDigits(s)
  {
    if |s| > 0 && AllDigits(s) then Some(DigitsValue(s)) else None
  }

  /** Reading back the decimal rendering gives the number. */
  lemma {:induction false} ParseNatToString(n: nat)
    ensures ParseNat(NatToString(n)) == Some(n)
    decreases n
  {
    var s := NatToString(n);
    if n >= 10 {
      ParseNatToString(n / 10);
      assert s[..|s| - 1] == NatToString(n / 10);
      assert s[|s| - 1] == DigitChar(n % 10);
      assert DigitsValue(s) == 10 * (n / 10) + n % 10;
    }
  }

  /** Distinct numbers render differently. */
  lemma NatToStringInjective(m: nat, n: nat)
    requires NatToString(m) == NatToString(n)
    ensures m == n
  {
    ParseNatToString(m);
    ParseNatToString(n);
  }

  // ---------------------------------------------------------------------
  // Splitting

  /** Splits `s` at the first `c`: the part before it and the part after it,
      or None when `c` does not occur. */
  function SplitFirst(s: string, c: char): (r: Option<(string, string)>)
    ensures r.Some? ==> s == r.value.0 + [c] + r.value.1 && c !in r.value.0
    ensures r.None? ==> c !in s
    decreases |s|
  {
    if |s| == 0 then None
    else if s[0] == c then Some(([], s[1..]))
    else match SplitFirst(s[1..], c)
      case None => None
      case Some((before, after)) => Some(([s[0]] + before, after))
  }

  /** A string assembled as `a + c + b`, with no `c` inside `a`, splits back
      into exactly `a` and `b`. */
  lemma {:induction false} SplitFirstOfConcat(a: string, c: char, b: string)
    requires c !in a
    ensures SplitFirst(a + [c] + b, c) == Some((a, b))
    decreases |a|
  {
    var s := a + [c] + b;
    if |a| == 0 {
      assert s == [c] + b;
      assert s[1..] == b;
    } else {
      assert s[0] == a[0];
      assert s[1..] == a[1..] + [c] + b;
      SplitFirstOfConcat(a[1..], c, b);
      assert [a[0]] + a[1..] == a;
    }
  }
}

=== FILE: trigger.dfy ===
/** The `reviewPullRequest` server action: validate the repository, its
    owner's GitHub account and token, fetch the pull request, then queue a
    `pr.review.requested` event. Any error leads to a best-effort `FAILED`
    review row, whose own failure is swallowed. */
module ManualReview {
  import opened Js
  import opened Entities
  import opened Formats

  const ReviewRequested := "pr.review.requested"
  const FailedStatus := "FAILED"
  const FailedTitle := "Failed to fetch PR"
  const QueuedMessage := "Review Queued"
  const TokenMissingMessage := "GitHub token missing. Please reconnect the repository."

  function RepositoryNotFoundMessage(owner: string, repo: string): string
  {
    "Repository " + owner + "/" + repo + " not found in the database.Please reconnect the repository."
  }

  function AccountNotFoundMessage(userId: string): string
  {
    "GitHub account not found for user " + userId + ". Please reconnect the repository."
  }

  /** The accounts the repository lookup includes: the user's GitHub ones, in order. */
  function GithubAccounts(accounts: seq<Account>): (r: seq<Account>)
    ensures forall a :: a in r <==> a in accounts && a.providerId == GithubProvider
    ensures |r| <= |accounts|
  {
    if |accounts| == 0 then []
    else (if accounts[0].providerId == GithubProvider then [accounts[0]] else []) + GithubAccounts(accounts[1..])
  }

  /** What validation hands on: the repository and the token. */
  datatype Validated = Validated(repository: Repository, token: string)

  /** The checks, in order: the repository exists, its user has a GitHub
      account, that account's token is a non-empty string. The first failing
      check decides the error; a failing lookup propagates what it threw. */
  function Validate(owner: string, repo: string, found: Result<Option<Repository>>): (r: Result<Validated>)
    ensures found.Fail? ==> r == Fail(found.error)
    ensures found == Ok(None) ==> r == Fail(Error(RepositoryNotFoundMessage(owner, repo)))
    ensures found.Ok? && found.value.Some? ==>
      var repository := found.value.value;
      var accounts := GithubAccounts(repository.user.accounts);
      if |accounts| == 0 then r == Fail(Error(AccountNotFoundMessage(repository.user.id)))
      else if !Truthy(accounts[0].accessToken) then r == Fail(Error(TokenMissingMessage))
      else r == Ok(Validated(repository, accounts[0].accessToken.s))
    ensures r.Ok? ==> r.value.token != ""
  {
    match found
    case Fail(e) => Fail(e)
    case Ok(None) => Fail(Error(RepositoryNotFoundMessage(owner, repo)))
    case Ok(Some(repository)) =>
      var accounts := GithubAccounts(repository.user.accounts);
      if |accounts| == 0 then Fail(Error(AccountNotFoundMessage(repository.user.id)))
      else if !Truthy(accounts[0].accessToken) then Fail(Error(TokenMissingMessage))
      else Ok(Validated(repository, accounts[0].accessToken.s))
  }

  /** What the action returns: `{success: true, message}` or nothing. */
  datatype ActionResult = Queued(success: bool, message: string) | NoValue

  /** The calls the action made and what it returned. */
  datatype TriggerRun = TriggerRun(calls: seq<Call>, result: ActionResult)

  /** The text stored for a failure: "Error: " followed by the error's
      message, or by "Unknown error" for a thrown value that is not an
      `Error`. */
  function FailureText(e: Thrown): (t: string)
    ensures e.Error? ==> t == "Error: " + e.message
    ensures e.NonError? ==> t == "Error: Unknown error"
  {
    "Error: " + (if e.Error? then e.message else "Unknown error")
  }

  /** The row recorded for a failure. */
  function FailedRecord(repositoryId: string, owner: string, repo: string, prNumber: nat, e: Thrown): (rec: ReviewRecord)
    ensures rec.status == FailedStatus && rec.prTitle == FailedTitle && rec.review == FailureText(e)
    ensures rec.prUrl == PullRequestUrl(owner, repo, prNumber)
    ensures rec.repositoryId == repositoryId && rec.prNumber == prNumber
  {
    ReviewRecord(repositoryId, prNumber, FailedTitle, PullRequestUrl(owner, repo, prNumber), FailureText(e), FailedStatus)
  }

  /** The catch block: look the repository up again and, if it is there,
      create one failed row. Whatever the lookup or the write do, the action
      returns nothing. */
  function RecordFailure(owner: string, repo: string, prNumber: nat, e: Thrown, svc: Services, before: seq<Call>): (run: TriggerRun)
    ensures run.result == NoValue
    ensures |run.calls| > |before| && run.calls[..|before|] == before && run.calls[|before|] == FindRepository(owner, repo)
    ensures svc.findRepository(owner, repo).Ok? && svc.findRepository(owner, repo).value.Some? ==>
      var rec := FailedRecord(svc.findRepository(owner, repo).value.value.id, owner, repo, prNumber, e);
      && run.calls[|before| + 1..] == [CreateReview(rec)]
      && CreatedRecords(run.calls) == CreatedRecords(before) + [rec]
    ensures !(svc.findRepository(owner, repo).Ok? && svc.findRepository(owner, repo).value.Some?) ==>
      && |run.calls| == |before| + 1
      && CreatedRecords(run.calls) == CreatedRecords(before)
  {
    var lookup := FindRepository(owner, repo);
    match svc.findRepository(owner, repo)
    case Ok(Some(repository)) =>
      // the write's own result is not inspected: a failure is only logged
      var rec := FailedRecord(repository.id, owner, repo, prNumber, e);
      CreatedRecordsAppend(before, [lookup, CreateReview(rec)]);
      assert CreatedRecords([lookup, CreateReview(rec)]) == [rec] by {
        assert [lookup, CreateReview(rec)][1..] == [CreateReview(rec)];
        assert [CreateReview(rec)][1..] == [];
      }
      TriggerRun(before + [lookup, CreateReview(rec)], NoValue)
    case _ =>
      CreatedRecordsAppend(before, [lookup]);
      assert CreatedRecords([lookup]) == [] by {
        assert [lookup][1..] == [];
      }
      TriggerRun(before + [lookup], NoValue)
  }

  /** The action. */
  function ReviewPullRequest(owner: string, repo: string, prNumber: nat, svc: Services): (run: TriggerRun)
    ensures |run.calls| >= 1 && run.calls[0] == FindRepository(owner, repo)
    ensures run.result.Queued? ==> run.result == Queued(true, QueuedMessage)
    // the event is queued exactly when all four checks pass and it is delivered
    ensures run.result.Queued? <==>
      var v := Validate(owner, repo, svc.findRepository(owner, repo));
      && v.Ok?
      && svc.getPullRequestDiff(v.value.token, owner, repo, prNumber).Ok?
      && svc.sendEvent(ReviewRequested, ReviewEvent(owner, repo, prNumber, v.value.repository.user.id)).Ok?
    // success records nothing; any error records at most one row, and only for a repository that exists
    ensures run.result.Queued? ==> CreatedRecords(run.calls) == []
    // a failed check ends the chain: the pull request is never fetched and no event is sent
    ensures Validate(owner, repo, svc.findRepository(owner, repo)).Fail? ==>
      forall i :: 0 <= i < |run.calls| ==> !run.calls[i].GetPullRequestDiff? && !run.calls[i].SendEvent?
    ensures run.result.NoValue? ==>
      match svc.findRepository(owner, repo)
      case Ok(Some(repository)) =>
        |CreatedRecords(run.calls)| == 1
        && CreatedRecords(run.calls)[0].repositoryId == repository.id
        && CreatedRecords(run.calls)[0].status == FailedStatus
        && CreatedRecords(run.calls)[0].prTitle == FailedTitle
        && CreatedRecords(run.calls)[0].prUrl == PullRequestUrl(owner, repo, prNumber)
      case _ => CreatedRecords(run.calls) == []
  {
    var lookup := FindRepository(owner, repo);
    match Validate(owner, repo, svc.findRepository(owner, repo))
    case Fail(e) =>
      NoCreateNoRecords([lookup]);
      RecordFailure(owner, repo, prNumber, e, svc, [lookup])
    case Ok(v) =>
      var fetch := GetPullRequestDiff(v.token, owner, repo, prNumber);
      match svc.getPullRequestDiff(v.token, owner, repo, prNumber)
      case Fail(e) =>
        NoCreateNoRecords([lookup, fetch]);
        RecordFailure(owner, repo, prNumber, e, svc, [lookup, fetch])
      case Ok(_) =>
        var event := ReviewEvent(owner, repo, prNumber, v.repository.user.id);
        var send := SendEvent(ReviewRequested, event);
        match svc.sendEvent(ReviewRequested, event)
        case Fail(e) =>
          NoCreateNoRecords([lookup, fetch, send]);
          RecordFailure(owner, repo, prNumber, e, svc, [lookup, fetch, send])
        case Ok(_) =>
          NoCreateNoRecords([lookup, fetch, send]);
          TriggerRun([lookup, fetch, send], Queued(true, QueuedMessage))
  }

  /** An event is sent only after the pull request was fetched with the
      validated token, and it carries the repository owner's user id. */
  lemma SendOnlyAfterFetch(owner: string, repo: string, prNumber: nat, svc: Services, i: nat)
    requires i < |ReviewPullRequest(owner, repo, prNumber, svc).calls|
    requires ReviewPullRequest(owner, repo, prNumber, svc).calls[i].SendEvent?
    ensures var run := ReviewPullRequest(owner, repo, prNumber, svc);
      var v := Validate(owner, repo, svc.findRepository(owner, repo));
      && i == 2 && v.Ok?
      && run.calls[1] == GetPullRequestDiff(v.value.token, owner, repo, prNumber)
      && svc.getPullRequestDiff(v.value.token, owner, repo, prNumber).Ok?
      && run.calls[2] == SendEvent(ReviewRequested, ReviewEvent(owner, repo, prNumber, v.value.repository.user.id))
  {
  }

  /** A failed check is recorded with its own message: for an existing
      repository whose account or token check fails, the one row created
      carries that check's error. */
  lemma FailedCheckRecorded(owner: string, repo: string, prNumber: nat, svc: Services, repository: Repository)
    requires svc.findRepository(owner, repo) == Ok(Some(repository))
    requires Validate(owner, repo, svc.findRepository(owner, repo)).Fail?
    ensures var e := Validate(owner, repo, svc.findRepository(owner, repo)).error;
      && CreatedRecords(ReviewPullRequest(owner, repo, prNumber, svc).calls)
           == [FailedRecord(repository.id, owner, repo, prNumber, e)]
      && (|GithubAccounts(repository.user.accounts)| == 0 ==>
            e == Error(AccountNotFoundMessage(repository.user.id)))
  {
  }

  /** A failing pull-request fetch is recorded with the fetch's error, and no
      event is sent. */
  lemma FailedFetchRecorded(owner: string, repo: string, prNumber: nat, svc: Services, repository: Repository)
    requires svc.findRepository(owner, repo) == Ok(Some(repository))
    requires Validate(owner, repo, svc.findRepository(owner, repo)).Ok?
    requires svc.getPullRequestDiff(Validate(owner, repo, svc.findRepository(owner, repo)).value.token,
                                    owner, repo, prNumber).Fail?
    ensures var run := ReviewPullRequest(owner, repo, prNumber, svc);
      var e := svc.getPullRequestDiff(Validate(owner, repo, svc.findRepository(owner, repo)).value.token,
                                      owner, repo, prNumber).error;
      && CreatedRecords(run.calls) == [FailedRecord(repository.id, owner, repo, prNumber, e)]
      && forall i :: 0 <= i < |run.calls| ==> !run.calls[i].SendEvent?
  {
    var v := Validate(owner, repo, svc.findRepository(owner, repo)).value;
    var e := svc.getPullRequestDiff(v.token, owner, repo, prNumber).error;
    var before := [FindRepository(owner, repo), GetPullRequestDiff(v.token, owner, repo, prNumber)];
    var run := ReviewPullRequest(owner, repo, prNumber, svc);
    assert run == RecordFailure(owner, repo, prNumber, e, svc, before);
    var rec := FailedRecord(repository.id, owner, repo, prNumber, e);
    assert run.calls == before + [FindRepository(owner, repo), CreateReview(rec)];
    NoCreateNoRecords(before);
  }

  /** A send that throws after a successful fetch is recorded like any other
      error: the one row created carries the text of the send's error, and
      the action returns nothing. */
  lemma FailedSendRecorded(owner: string, repo: string, prNumber: nat, svc: Services, repository: Repository)
    requires svc.findRepository(owner, repo) == Ok(Some(repository))
    requires Validate(owner, repo, svc.findRepository(owner, repo)).Ok?
    requires svc.getPullRequestDiff(Validate(owner, repo, svc.findRepository(owner, repo)).value.token,
                                    owner, repo, prNumber).Ok?
    requires svc.sendEvent(ReviewRequested, ReviewEvent(owner, repo, prNumber, repository.user.id)).Fail?
    ensures var run := ReviewPullRequest(owner, repo, prNumber, svc);
      var e := svc.sendEvent(ReviewRequested, ReviewEvent(owner, repo, prNumber, repository.user.id)).error;
      && CreatedRecords(run.calls) == [FailedRecord(repository.id, owner, repo, prNumber, e)]
      && CreatedRecords(run.calls)[0].review == FailureText(e)
      && run.result == NoValue
  {
    var v := Validate(owner, repo, svc.findRepository(owner, repo)).value;
    var event := ReviewEvent(owner, repo, prNumber, repository.user.id);
    var e := svc.sendEvent(ReviewRequested, event).error;
    var before := [FindRepository(owner, repo), GetPullRequestDiff(v.token, owner, repo, prNumber),
                   SendEvent(ReviewRequested, event)];
    var run := ReviewPullRequest(owner, repo, prNumber, svc);
    assert run == RecordFailure(owner, repo, prNumber, e, svc, before);
    NoCreateNoRecords(before);
  }

  /** Whatever writing the failure row does, the action makes the same calls
      and returns the same thing: a failing write is swallowed. */
  lemma RecordWriteSwallowed(owner: string, repo: string, prNumber: nat, svc: Services,
                             write: ReviewRecord -> Result<()>)
    ensures ReviewPullRequest(owner, repo, prNumber, svc.(createReview := write))
            == ReviewPullRequest(owner, repo, prNumber, svc)
  {
  }
}

=== FILE: webhook.dfy ===
/** The GitHub webhook endpoint: the body is parsed as JSON first, then the
    `x-github-event` header is looked at. A ping is answered with "pong",
    every other event is acknowledged, and a body that does not parse is an
    internal server error. */
module Webhook {
  import opened Js

  const Ping := "ping"
  const Pong := "pong"
  const EventReceived := "Event received"
  const InternalServerError := "Internal Server Error"

  /** The JSON object sent back: `{msg}` or `{error}`. */
  datatype Reply = Msg(msg: string) | ErrorReply(error: string)

  datatype Response = Response(status: nat, reply: Reply)

  /** The handler. `parsed` is what reading the body as JSON gave; `event` is
      the header, absent when the request did not carry it. */
  function Post<T>(parsed: Result<T>, event: Option<string>): (r: Response)
    ensures r.status == 500 <==> parsed.Fail?
    ensures r.status == 200 <==> parsed.Ok?
    ensures parsed.Fail? ==> r.reply == ErrorReply(InternalServerError)
    ensures r.reply == Msg(Pong) <==> parsed.Ok? && event == Some(Ping)
    ensures r.reply == Msg(EventReceived) <==> parsed.Ok? && event != Some(Ping)
  {
    match parsed
    case Fail(_) => Response(500, ErrorReply(InternalServerError))
    case Ok(_) =>
      if event == Some(Ping) then Response(200, Msg(Pong))
      else Response(200, Msg(EventReceived))
  }

  /** Only "ping" is told apart: every other event, a missing header and
      `pull_request` included, gets the same response. */
  lemma OnlyPingDispatched<T>(parsed: Result<T>, e1: Option<string>, e2: Option<string>)
    requires e1 != Some(Ping) && e2 != Some(Ping)
    ensures Post(parsed, e1) == Post(parsed, e2)
    ensures Post(parsed, Some("pull_request")) == Post(parsed, None)
  {
  }

  /** The body is parsed before the header is looked at: a malformed ping is
      an error like any other malformed request, not a pong. */
  lemma MalformedPingFails<T>(parsed: Result<T>, event: Option<string>)
    requires parsed.Fail?
    ensures Post(parsed, Some(Ping)) == Post(parsed, event)
    ensures Post(parsed, Some(Ping)) == Response(500, ErrorReply(InternalServerError))
  {
  }
}
